=== FILE: README.md ===
# tsync core, modelled in Dafny

tsync migrates Trello boards into Microsoft Planner plans. This project
models the data transformations at its centre; the network and console
around them are left out.

- **Checklist flattening.** Several checklists of a card become one ordered
  item list. Each item is renamed `<checklist> - <item>`, except when the
  card has exactly one checklist.
- **Board-to-plan mapping.** For each board, the operator picks one of the
  plans not chosen yet, by its position. The chosen plan is removed from
  the offer, so no plan serves two boards. A board id is looked up as the
  first map carrying it.
- **The upload pass.** Each attachment record is handled in one of three
  ways:
  - an empty one is recorded as it is;
  - one whose file does not open is skipped;
  - any other is uploaded and recorded with the returned URL (which may be
    missing).
- **The sync run.** Every board becomes buckets, one per list, in its
  mapped plan. Every card becomes a task with:
  - a title cut to 255 characters and the card's description;
  - one merged checklist, with item titles cut to 100 characters and order
    hints growing by `" !"` per item;
  - one external reference per attachment, pointing at the uploaded copy if
    there is one and at the Trello URL otherwise.

  Comments of a created task are posted as replies on its thread, in
  order. A task that is not created marks its card as failed and the run
  goes on. A bucket that is not created ends the run.
- **The records.** This covers the `FileMeta` constructors and which of its
  fields are settable, the two `TCard` constructors, and the comment
  constructors and their rendering.

Remote calls are parameters of the model ("oracles"): bucket and task
creation, the upload, opening the downloaded file, URL escaping and date
formatting. Bucket and task creation also receive the running number of
the call, so two calls with equal arguments may answer differently.
`Guid.NewGuid()` is an explicit identifier supply. Operator input is the
sequence of lines typed.

C# `null` is `Option.None`. The exceptions the code can raise are modelled
as error outcomes:
- `First()` finding no uploaded record gives `MissingUploadMeta`.
- `Dictionary.Add` with a key already present gives `DuplicateReference` or
  `DuplicateTaskId`.

Where the sync run throws, it stops with `Crashed`. `TCheckItem.Checked` is
the predicate `CheckItem.Checked` (the state equals `"complete"`; see "## Left out" for how strings are compared), and
`TCard.Closed` is `Card.Closed` (it is `IsArchived`).

Modules, one file each:
- `Basics`: `Option`, `Result`, timestamps and identifiers.
- `Seqs`: first match, filter and map over sequences.
- `CheckLists`: checklists and the flattening.
- `Comments`: comments and their rendering.
- `Attachments`: the attachment record.
- `Cards`: cards and their two constructors.
- `Boards`: lists, boards and organizations.
- `FileMetas`: the attachment bookkeeping record.
- `BoardMaps`: the board-to-plan mapping and its lookup.
- `Uploads`: the upload pass.
- `TaskPayloads`: building one card's task.
- `SyncRun`: the sync run.

## Model

| member | source | states |
|---|---|---|
| CheckLists.CheckItem.Checked | tsync/TCheckList.cs:25 | an item is ticked exactly when its state is the word `complete`; any other state, including another capitalisation, is unticked (culture-aware equality is under "## Left out") |
| CheckLists.FlattenCheckLists | tsync/TCheckList.cs:50-61 | one checklist comes back unchanged; otherwise the result equals the reference merge `PrefixedAll` (prefixed items, checklist by checklist), so by `PrefixedAllLength` it holds every item of every checklist |
| CheckLists.PrefixedAllAt | tsync/TCheckList.cs:56-58 | item `j` of checklist `i` sits at position `Offset(i) + j` of the merged list, with its id and state and the name `<list name> - <item name>` |
| CheckLists.PrefixedAllKeepsIdsAndStates | tsync/TCheckList.cs:58 | merging only renames: position by position, the merged list has the ids and states of the plain concatenation |
| CheckLists.PrefixedAllLength | tsync/TCheckList.cs:56-58 | the merged list has exactly the total number of items |
| Comments.NewCommentData | tsync/TComment.cs:24-27 | the text is stored unchanged |
| Comments.NewComment | tsync/TComment.cs:41-46 | id, author and data are stored; the date is never assigned and keeps the default value |
| Comments.Render | tsync/TComment.cs:48-51 | the rendering starts with `[tsync][`, is the header (date, full name, handle) followed by the comment text, and its length is their sum |
| Comments.RenderDeterminesText | tsync/TComment.cs:50 | two comments with the same date and author that render alike have the same text |
| Comments.ConstructedCommentRendering | tsync/TComment.cs:41-51 | a comment built by the constructors renders as tag, formatted default date, `] `, full name, ` (`, handle, `): `, text |
| Cards.NewCard | tsync/TCard.cs:6-43 | every argument lands in its field, both dates are present, comments start empty, and `Closed` equals `IsArchived` |
| Cards.WithComments | tsync/TCard.cs:45-58 | the copy has exactly the supplied comments and equals the original on every other field |
| Cards.WithCommentsRoundTrip | tsync/TCard.cs:45-58 | copying twice keeps only the last comments; copying back the original comments gives the original card |
| Basics.NewGuid | tsync/FileMeta.cs:35 | the identifier drawn is new with respect to the supply, and the supply moves past it |
| FileMetas.NewFileMeta | tsync/FileMeta.cs:33-39 | attachment and board stored, not complete, no hash, no uploaded URL, and a fresh identifier |
| FileMetas.NewFileMetas | tsync/FileMeta.cs:33-39 | records built one after another from one supply have the given contents and strictly increasing identifiers |
| FileMetas.FreshIdsDiffer | tsync/FileMeta.cs:35 | two records built from one supply never share an identifier |
| FileMetas.LaterSupplyIsFresh | tsync/FileMeta.cs:35 | records built later from the advanced supply never reuse an earlier identifier |
| FileMetas.RestoreFileMeta | tsync/FileMeta.cs:41-49 | identifier, attachment, board, completion flag and hash are stored verbatim; no uploaded URL |
| FileMetas.RestoreDefaults | tsync/FileMeta.cs:41-42 | leaving out the optional arguments gives not complete and no hash |
| FileMetas.Apply | tsync/FileMeta.cs:21-31 | an assignment to a settable property changes that property only; identifier, attachment and board stay |
| FileMetas.InitOnlyFieldsStay | tsync/FileMeta.cs:21-31 | no sequence of assignments changes the identifier, attachment or board |
| FileMetas.WithGraphUrl | tsync/Program.cs:495-496 | setting the uploaded URL replaces it and changes nothing else |
| BoardMaps.ClassifyAsWritten | tsync/Program.cs:394-400 | the input check as written: a line is accepted exactly when it parses to `n` with `0 <= n <= count` |
| BoardMaps.AsWrittenAcceptsPastEnd | tsync/Program.cs:394-402 | the check as written accepts `n == count`, which is not a position of the plan list |
| BoardMaps.Classify | tsync/Program.cs:394-400 | the intended check: a line is accepted exactly when it parses to a position `0 <= n < count` |
| BoardMaps.ClassifyDiffersOnlyAtCount | tsync/Program.cs:394 | the two checks disagree exactly on the input equal to the number of plans |
| BoardMaps.NextChoice | tsync/Program.cs:385-399 | the prompt's answer is the first accepted line from the current one: it names a remaining position, every line before it is refused, and nothing is found exactly when every remaining line is refused |
| BoardMaps.ReadChoice | tsync/Program.cs:385-399 | reading lines until one is accepted gives exactly the first accepted line and the line after it |
| BoardMaps.MapBoardsToPlans | tsync/Program.cs:368-405 | refuses iff boards are not loaded or there are no plans. Otherwise the result is the reference mapping `MapRef`: each board, in order, takes the remaining plan named by the operator's next accepted line, and that plan leaves the offer. On success: one map per board, in board order, board ids copied, chosen plans plus remaining plans equal to the discovered plans as a multiset, and no more boards than plans |
| BoardMaps.MapRefValid | tsync/Program.cs:383-405 | every successful reference mapping is valid: one map per board with its id, chosen and remaining plans together equal the discovered plans as a multiset |
| BoardMaps.FirstChoicesMapInOrder | tsync/Program.cs:391-404 | when the operator types `0` at every prompt and there are enough plans, mapping succeeds and board `k` takes the `k`-th plan |
| BoardMaps.ChoiceKeepsMapping | tsync/Program.cs:402-404 | mapping the next board to the chosen plan and removing that plan keeps the mapping valid |
| BoardMaps.MappingFitsPlans | tsync/Program.cs:383-405 | a complete mapping implies there were at least as many plans as boards |
| BoardMaps.NoPlanMappedTwice | tsync/Program.cs:402-404 | with distinct discovered plan ids, no plan id appears in two board maps |
| BoardMaps.PlanForBoard | tsync/Program.cs:423-432 | the plan id and group id of the first map for the board; both missing when no map has it |
| BoardMaps.PlanForMappedBoard | tsync/Program.cs:423-432 | after a mapping of boards with distinct ids, each board finds the plan chosen for it |
| BoardMaps.PlanForUnmappedBoard | tsync/Program.cs:423-432 | an id that no mapped board carries finds nothing |
| Uploads.Recorded | tsync/Program.cs:473-501 | an empty record is kept as is; any other gets the upload's answer (for its board's plan, file name and file) as its URL and changes nothing else |
| Uploads.UploadTrelloFilesToGraph | tsync/Program.cs:451-503 | refuses without board maps, without records, or when files were already uploaded, each exactly in its own case; otherwise the result is the kept records (empty or openable), in order, as recorded |
| Uploads.UploadOutcome | tsync/Program.cs:471-502 | an empty record appears unchanged; an openable one appears with the upload's URL; an unopenable one leaves no entry with its identifier |
| Uploads.UploadOnlySetsUrls | tsync/Program.cs:495-500 | every entry of the pass equals some input record except possibly in its URL |
| Uploads.UploadAccountsForAll | tsync/Program.cs:471-490 | recorded and skipped entries together number exactly the input records |
| TaskPayloads.Truncate | tsync/Program.cs:584-592 | the result is the string itself when within the limit, else its first `limit` characters; always a prefix |
| TaskPayloads.TruncateIdempotent | tsync/Program.cs:617-625 | cutting twice equals cutting once; a string within the limit is unchanged |
| TaskPayloads.OrderHintsIncrease | tsync/Program.cs:609-632 | item `k`'s hint has `2(k+1)` characters; an earlier hint is a strictly shorter prefix of every later one |
| TaskPayloads.ChecklistEntryAt | tsync/Program.cs:609-633 | entry `k` ticks as item `k`, has at most 100 characters of its name as title, and its hint is the first hint plus `k` steps |
| TaskPayloads.CardChecklistEntries | tsync/Program.cs:609-633 | with the first hint `" !"`, entry `k` has order hint `OrderHint(k)` |
| TaskPayloads.CardChecklist | tsync/Program.cs:604-635 | the merged checklist has one entry per item of every checklist, in order, unprefixed, ticked as its item, titled with the truncated name, with hint `OrderHint(k)` |
| TaskPayloads.RefUrl | tsync/Program.cs:647-655 | the uploaded URL when present, else the attachment's source URL |
| TaskPayloads.FindUploaded | tsync/Program.cs:646 | a record found belongs to the uploaded list and to the attachment |
| TaskPayloads.FindUploadedNone | tsync/Program.cs:646 | nothing is found exactly when no uploaded record belongs to the attachment |
| TaskPayloads.FindUploadedFirst | tsync/Program.cs:646 | the record found is the earliest one for the attachment |
| TaskPayloads.References | tsync/Program.cs:637-668 | built references number the attachments and have distinct keys; a missing-record error names an attachment without an uploaded record |
| TaskPayloads.ReferencesFirstFailure | tsync/Program.cs:642-666 | the references fail with the error of the first attachment that fails (the first `First()` or `Add` that throws); the attachments after it cannot change that error |
| TaskPayloads.ReferencesSucceed | tsync/Program.cs:642-666 | building the references succeeds exactly when every attachment has an uploaded record (`First()` does not throw) and their keys are pairwise distinct (`Add` does not throw) |
| TaskPayloads.DuplicateReferenceClash | tsync/Program.cs:661-666 | a duplicate-reference error names a key that the references of two different attachments both have |
| TaskPayloads.ReferenceAt | tsync/Program.cs:642-666 | reference `k` is made from the uploaded record of attachment `k`: key `@` + escaped URL, alias the file name, date the attachment date |
| TaskPayloads.MissingUploadFails | tsync/Program.cs:646 | an attachment without an uploaded record makes the card's references fail |
| TaskPayloads.BuildTask | tsync/Program.cs:583-668 | the planner task carries plan, bucket, truncated title and description. It has a checklist iff the card has checklists, and references iff it has attachments. With attachments it succeeds exactly when the references do; it fails only on a card with attachments, and then with the references' own error |
| TaskPayloads.TitleRule | tsync/Program.cs:584-592 | a title of at most 255 characters is kept; a longer one is cut to its first 255 |
| SyncRun.CommentReplies | tsync/Program.cs:690-698 | one reply per comment, in comment order, in the plan's group and on the created task's thread, carrying the rendered comment |
| SyncRun.RepliesCarryCommentTexts | tsync/Program.cs:693-697 | each reply ends with the text of its comment |
| SyncRun.ProcessCard | tsync/Program.cs:579-703 | counts the card. It then either creates one task or records the card as failed (no replies), or crashes adding neither. Earlier entries are kept and the dictionaries stay well formed |
| SyncRun.CardReplies | tsync/Program.cs:670-703 | replies are added exactly for a created task with a thread, and they are the card's comments; a created task is appended to the posted tasks, and its id to the tasks with attachments exactly when the card has attachments; a failed one is appended to the failed ids |
| SyncRun.CardCrashes | tsync/Program.cs:583-672 | a card ends the run exactly when building its task throws, which happens only for a card with attachments and then with the error the references raise (`First()` on a missing record, `Add` on a repeated reference key, at the first attachment that fails), or when the returned task id is already posted, with that id |
| SyncRun.RunCards | tsync/Program.cs:579-704 | the cards of a bucket are counted up to the first crash; a completed pass counts them all; no bucket failure arises here |
| SyncRun.RunCardsSnoc | tsync/Program.cs:579-704 | the cards of a bucket are processed in their order, each once: the pass over `cards + [c]` is the pass over `cards` and then, unless it crashed, card `c` on the tally it left |
| SyncRun.RunListsSnoc | tsync/Program.cs:566-705 | the lists of a board are processed in their order, each once: the pass over `lists + [l]` is the pass over `lists` and then, unless it stopped, list `l` (its bucket, then its cards) |
| SyncRun.RunBoardsSnoc | tsync/Program.cs:561-706 | the boards are processed in their order, each once: the run over `boards + [b]` is the run over `boards` and then, unless it stopped, board `b` counted and its lists in the plan mapped to it |
| SyncRun.RunList | tsync/Program.cs:566-578 | one list: it is counted; the run stops at it exactly when its bucket call answers nothing, with its plan and name; otherwise its cards run |
| SyncRun.RunLists | tsync/Program.cs:566-705 | a completed pass counts all lists and cards of the board; a bucket failure names the board's plan and a bucket call that answered nothing |
| SyncRun.FirstRefusalIsFirst | tsync/Program.cs:570-576 | the first refusal is a refused call, and every call before it was granted |
| SyncRun.RunListStopsAtRefusal | tsync/Program.cs:568-576 | one list makes one bucket call and stops exactly when that call is refused |
| SyncRun.RunListsStopAtRefusal | tsync/Program.cs:566-577 | the lists of a board make their bucket calls in order and stop at the first refused one: a completed pass had every call granted; a bucket stop comes right after the first refused call; a crash comes before any refusal |
| SyncRun.RunBoards | tsync/Program.cs:561-706 | a completed run counts all boards, lists and cards; a bucket failure is a call that answered nothing |
| SyncRun.RunBoardsStopAtRefusal | tsync/Program.cs:557-577 | over all boards, each list in its board's plan, the run stops at the first refused bucket call in the same sense |
| SyncRun.RunCardsKeepsBooks | tsync/Program.cs:579-704 | every counted card is posted or failed, except the one a crash interrupts; task ids stay distinct; nothing earlier is lost. Which card went where follows from `RunCardsSnoc` and `CardReplies` |
| SyncRun.RunListsKeepsBooks | tsync/Program.cs:566-705 | the same accounting holds over the lists of a board |
| SyncRun.RunBoardsKeepsBooks | tsync/Program.cs:557-706 | the same accounting holds over all boards |
| SyncRun.WithAttachmentsFit | tsync/Program.cs:675-679 | created tasks with attachments never outnumber the created tasks |
| SyncRun.SyncBoardsToPlans | tsync/Program.cs:535-706 | refuses without boards, maps, uploaded records or plans, and without the exact word `understood`, each exactly in its own case. Otherwise every counted card is posted or failed (one fewer on a crash), ids are distinct, and the run stops at the first refused bucket call, so a completed run had every bucket granted. A completed run counts every board, list and card, and posted plus failed equals all cards |

## Left out

- Network and SDK traffic is not modelled: Trello requests, Graph authentication, and the group, plan and task calls in `GraphHelper` and `TrelloHelper`. Their answers are oracle parameters, because they are foreign I/O.
- Posting a reply is not an oracle here: each `PostReplyToGroupThread` call is recorded as a `Reply` request, since the source discards its result.
- Exceptions thrown by remote calls are not modelled; they are I/O failures outside the code shown.
- JSON persistence (`SaveGraphUploadState`/`LoadGraphUploadState`, tsync/Program.cs:505-533) and the wire types in `TPlannerTask.cs` are left out; they are serialiser mapping.
- Settings loading, the console menu loop, its catch-all and all console output are left out. They are I/O.
- `CleanBoards` (tsync/Program.cs:723-768) is left out, because it is remote deletion. Its "no maps" check (725-728) and its confirmation check (735-738) print a message but do not return.
- The two `lock` blocks of the upload pass are left out; the pass is sequential.
- The declaration of `GraphHelper.GroupPlan` is not part of this model. Only its `groupId` and `planId` fields are used.
- `DateTime` is an abstract tick count, and its `"u"` formatting is the parameter `fmt`.
- The checklist and reference dictionaries are modelled as sequences in insertion order. The checklist keys are fresh `Guid` strings and are left out. The constant `Type` and `OdataType` fields of a reference are left out.
- `Attachment.bytes` is a plain integer. `TAttachment.Bytes` is declared as a non-nullable `Int32` (tsync/TAttachment.cs:16-20), yet its doc comment says the length may be null for links. The `is null` test at tsync/Program.cs:473 cannot apply to that `Int32` as declared. The model follows the doc comment and reads a missing length as a value below 1, so the one test `bytes < 1` covers both cases.
- Uploads.Recorded: the upload pass never sets a record's `Complete` flag. An empty attachment's record is appended unchanged (tsync/Program.cs:473-481), and an uploaded one only gets its `GraphUrl`, so `Complete` keeps the value the record had. The message printed at tsync/Program.cs:445 describes the flag as false for files that were not uploaded.
- BoardMaps.MapBoardsToPlans: uses the corrected input check (see Findings). When the typed lines run out, it returns `InputExhausted`; the source would keep prompting, since a missing line fails `int.TryParse`.
- Uploads.UploadTrelloFilesToGraph: walks the records in the sequence order given. The source walks a dictionary, whose order .NET does not specify. The opened stream is represented by the record's identifier.
- CheckLists.CheckItem.Checked: compares the state with `"complete"` by plain character equality. The source uses `StringComparison.InvariantCulture` (tsync/TCheckList.cs:25), which also equates canonically equivalent strings and strings that differ only by ignorable code points. Culture-aware collation is not modelled.
- BoardMaps.PlanForBoard: matches board ids by plain character equality, where the source uses an `InvariantCulture` comparison (tsync/Program.cs:426). The same simplification applies.
- SyncRun.SyncBoardsToPlans: accepts the confirmation only when it is exactly `understood`, where the source uses an `InvariantCulture` comparison (tsync/Program.cs:551). The same simplification applies, and `Attachment.FileNamesMatch` (tsync/TAttachment.cs:14) is plain equality for the same reason.
- TaskPayloads.Truncate: counts characters, not the UTF-16 code units `String.Length` and `Substring` count, so a cut through a surrogate pair is not modelled.
- SyncRun.SyncBoardsToPlans: the 32-bit board, list and card counters are unbounded; wrap-around would need more than 2^31 cards.
- SyncRun.ProcessCard: the number passed to task creation is the count of cards attempted so far, so the oracle can answer each attempt independently. The source passes only the payload to task creation.

## Findings

| source | as written | input that shows it | evidently intended | confidence | as-written member | corrected member |
|---|---|---|---|---|---|---|
| tsync/Program.cs:394 | the operator's choice is refused when `result > plannerPlans.Count`, so `result == Count` is accepted, and `plannerPlans[result]` at line 402 then throws `ArgumentOutOfRangeException`, which ends the mapping | with two plans left, typing `2` | refuse `result >= plannerPlans.Count` and prompt again | not executed | BoardMaps.ClassifyAsWritten (shown by BoardMaps.AsWrittenAcceptsPastEnd) | BoardMaps.Classify (used by BoardMaps.MapBoardsToPlans; compared by BoardMaps.ClassifyDiffersOnlyAtCount) |

=== FILE: attachments.dfy ===
/**
 A file or link attached to a card on the source service.
 */
module Attachments {
  import opened Basics

  /**
   `bytes` is the length the source service reports; a value below one marks
   an attachment with nothing to upload (a plain link). The source declares
   it as a 32-bit integer, and only its comparison with 1 is used here.
   */
  datatype Attachment = Attachment(
    id: string,
    name: string,
    fileName: string,
    bytes: int,
    isUpload: bool,
    mimeType: string,
    date: DateTime,
    url: string)
  {
    /** Display name and stored file name agree, compared as plain character sequences. */
    predicate FileNamesMatch() {
      name == fileName
    }
  }
}

=== FILE: basics.dfy ===
/**
 Shared value types of the migration model: the nullable wrapper that stands
 for C#'s `T?`, an abstract timestamp, and globally unique identifiers drawn
 from an explicit supply instead of `Guid.NewGuid()`.
 */
module Basics {

  /** A value that may be missing: `None` plays the part of C#'s `null`. */
  datatype Option<+T> = None | Some(value: T) {

    /** The wrapped value, or `default` when there is none (C#'s `??`). */
    function GetOr(default: T): (r: T)
      ensures Some? ==> r == value
      ensures None? ==> r == default
    {
      match this
      case Some(v) => v
      case None => default
    }
  }

  /** The outcome of an operation that can fail with an error of type `E`. */
  datatype Result<+T, +E> = Ok(value: T) | Err(error: E)

  /**
   A point in time, kept abstract as a tick count. The all-zero value is the
   one a C# `DateTime` field holds when no constructor assigns it.
   */
  datatype DateTime = DateTime(ticks: int)

  const DefaultDateTime: DateTime := DateTime(0)

  /** A globally unique identifier; only equality between them is observable. */
  datatype Guid = Guid(serial: nat)

  /**
   The source of fresh identifiers: every identifier handed out so far has a
   serial number below `next`, so the next one differs from all of them.
   */
  datatype GuidSupply = GuidSupply(next: nat)

  /** Draws one identifier and returns the advanced supply. */
  function NewGuid(supply: GuidSupply): (r: (Guid, GuidSupply))
    ensures r.0.serial >= supply.next
    ensures r.1.next > r.0.serial
  {
    (Guid(supply.next), GuidSupply(supply.next + 1))
  }
}

=== FILE: board_maps.dfy ===
/**
 The operator-driven correspondence between source boards and target plans.
 For each board, in order, the operator picks one of the plans not chosen
 yet by typing its position; the chosen plan is then removed from the
 choices, so no plan serves two boards. Operator input is modelled as the
 sequence of lines typed.
 */
module BoardMaps {
  import opened Basics
  import opened Seqs
  import opened Boards

  /** A target plan together with the group that owns it. */
  datatype GroupPlan = GroupPlan(groupId: string, planId: string)

  /** One board's destination: the owning group and the plan. */
  datatype BoardMap = BoardMap(trelloBoardId: string, graphGroupId: string, graphPlanId: string)

  /** The plan a board map points at. */
  function PlanOf(m: BoardMap): GroupPlan {
    GroupPlan(m.graphGroupId, m.graphPlanId)
  }

  /** One line typed by the operator: an integer when `int.TryParse` accepts it. */
  datatype Input = Parsed(n: int) | Unparsable

  /** What the prompt does with one line: ask again, or take the plan at `index`. */
  datatype Choice = Reprompt | Select(index: int)

  /**
   The input check as the source writes it: negative numbers and numbers
   above `count` are refused, so `count` itself is accepted although it is
   not a position in a list of `count` plans.
   */
  function ClassifyAsWritten(input: Input, count: nat): (c: Choice)
    ensures c.Select? <==> input.Parsed? && 0 <= input.n <= count
    ensures c.Select? ==> c.index == input.n
  {
    if !input.Parsed? || input.n < 0 || input.n > count then Reprompt else Select(input.n)
  }

  /** The as-written check accepts one past the last position, where the list indexer then throws. */
  lemma AsWrittenAcceptsPastEnd(plans: seq<GroupPlan>)
    ensures ClassifyAsWritten(Parsed(|plans|), |plans|) == Select(|plans|)
    ensures !(ClassifyAsWritten(Parsed(|plans|), |plans|).index < |plans|)
  {
  }

  /** The intended input check: exactly the positions of the remaining plans are accepted. */
  function Classify(input: Input, count: nat): (c: Choice)
    ensures c.Select? <==> input.Parsed? && 0 <= input.n < count
    ensures c.Select? ==> c.index == input.n
  {
    if !input.Parsed? || input.n < 0 || input.n >= count then Reprompt else Select(input.n)
  }

  /** The two checks differ only on the input equal to the number of plans. */
  lemma ClassifyDiffersOnlyAtCount(input: Input, count: nat)
    ensures Classify(input, count) != ClassifyAsWritten(input, count) <==> input == Parsed(count)
  {
  }

  datatype MapError =
    | NotReady        // boards not loaded, or no plans discovered
    | InputExhausted  // the operator stopped typing before every board was mapped

  /** The maps made so far and the plans still on offer. */
  datatype Mapping = Mapping(maps: seq<BoardMap>, remaining: seq<GroupPlan>)

  /**
   `m` maps `boards` onto `plans`: one map per board, in board order, and
   the chosen plans together with the remaining ones are exactly `plans`
   (as a multiset), so every chosen plan was on offer and was used once.
   */
  predicate ValidMapping(boards: seq<Board>, plans: seq<GroupPlan>, m: Mapping) {
    && |m.maps| == |boards|
    && (forall i :: 0 <= i < |boards| ==> m.maps[i].trelloBoardId == boards[i].id)
    && multiset(MapSeq(m.maps, PlanOf)) + multiset(m.remaining) == multiset(plans)
  }

  /**
   The operator's first accepted line from position `next` on, for a prompt
   offering `count` plans: the position it names and the line after it.
   Nothing when every remaining line is refused.
   */
  function NextChoice(inputs: seq<Input>, next: nat, count: nat): (r: Option<(nat, nat)>)
    requires next <= |inputs|
    ensures r.Some? ==> next < r.value.1 <= |inputs| && r.value.0 < count
    ensures r.Some? ==> Classify(inputs[r.value.1 - 1], count) == Select(r.value.0)
    ensures r.Some? ==> forall k :: next <= k < r.value.1 - 1 ==> Classify(inputs[k], count) == Reprompt
    ensures r.None? <==> forall k :: next <= k < |inputs| ==> Classify(inputs[k], count) == Reprompt
    decreases |inputs| - next
  {
    if next == |inputs| then None
    else
      match Classify(inputs[next], count)
      case Select(n) => Some((n as nat, next + 1))
      case Reprompt => NextChoice(inputs, next + 1, count)
  }

  /**
   The prompt for one board: reads lines from `next` on until one names a
   remaining plan, and gives that position and the line after it; nothing
   when the lines run out first.
   */
  method ReadChoice(inputs: seq<Input>, next: nat, count: nat) returns (r: Option<(nat, nat)>)
    requires next <= |inputs|
    ensures r == NextChoice(inputs, next, count)
  {
    var pos := next;
    while pos < |inputs|
      invariant next <= pos <= |inputs|
      invariant NextChoice(inputs, next, count) == NextChoice(inputs, pos, count)
      decreases |inputs| - pos
    {
      var c := Classify(inputs[pos], count);
      if c.Select? {
        return Some((c.index as nat, pos + 1));
      }
      pos := pos + 1;
    }
    return None;
  }

  /** `maps` followed by the maps of `rest`, when `rest` succeeded. */
  function Prepend(maps: seq<BoardMap>, rest: Result<Mapping, MapError>): Result<Mapping, MapError> {
    if rest.Ok? then Ok(Mapping(maps + rest.value.maps, rest.value.remaining)) else rest
  }

  /**
   Reference mapping of the boards from position `i` on: each board takes
   the remaining plan named by the operator's next accepted line, and that
   plan leaves the offer. Fails when the lines run out before a board is
   mapped.
   */
  function MapRef(boards: seq<Board>, i: nat, remaining: seq<GroupPlan>, inputs: seq<Input>, next: nat)
    : (r: Result<Mapping, MapError>)
    requires i <= |boards| && next <= |inputs|
    ensures r.Err? ==> r.error == InputExhausted
    ensures r.Ok? ==> |r.value.maps| == |boards| - i
    decreases |boards| - i
  {
    if i == |boards| then Ok(Mapping([], remaining))
    else
      match NextChoice(inputs, next, |remaining|)
      case None => Err(InputExhausted)
      case Some((p, after)) =>
        var bm := BoardMap(boards[i].id, remaining[p].groupId, remaining[p].planId);
        Prepend([bm], MapRef(boards, i + 1, remaining[..p] + remaining[p + 1..], inputs, after))
  }

  /** One step of `MapRef`: the board at `i` takes the plan named by the next accepted line, if any. */
  lemma MapRefStep(boards: seq<Board>, i: nat, remaining: seq<GroupPlan>, inputs: seq<Input>, next: nat)
    requires i < |boards| && next <= |inputs|
    ensures NextChoice(inputs, next, |remaining|).None? ==> MapRef(boards, i, remaining, inputs, next) == Err(InputExhausted)
    ensures NextChoice(inputs, next, |remaining|).Some? ==>
              var p := NextChoice(inputs, next, |remaining|).value.0;
              var after := NextChoice(inputs, next, |remaining|).value.1;
              MapRef(boards, i, remaining, inputs, next)
              == Prepend([BoardMap(boards[i].id, remaining[p].groupId, remaining[p].planId)],
                         MapRef(boards, i + 1, remaining[..p] + remaining[p + 1..], inputs, after))
  {
  }

  /** Prepending one map and then earlier ones is prepending them all at once. */
  lemma PrependSnoc(maps: seq<BoardMap>, bm: BoardMap, rest: Result<Mapping, MapError>)
    ensures Prepend(maps, Prepend([bm], rest)) == Prepend(maps + [bm], rest)
  {
    if rest.Ok? {
      assert maps + ([bm] + rest.value.maps) == (maps + [bm]) + rest.value.maps;
    }
  }

  /**
   `MapBoardsToPlans`: starting from no maps and all plans, for each board
   reads lines until one names a remaining plan, maps the board to it and
   removes it from the choices. Refuses to start without boards or plans.
   */
  method MapBoardsToPlans(boards: Option<seq<Board>>, plans: seq<GroupPlan>, inputs: seq<Input>)
    returns (r: Result<Mapping, MapError>)
    ensures (boards.None? || |plans| == 0) <==> r == Err(NotReady)
    ensures boards.Some? && |plans| > 0 ==> r == MapRef(boards.value, 0, plans, inputs, 0)
    ensures r.Ok? ==> boards.Some? && ValidMapping(boards.value, plans, r.value)
    ensures r.Ok? ==> |boards.value| <= |plans|
  {
    if boards.None? || |plans| == 0 {
      return Err(NotReady);
    }
    var bs := boards.value;
    var maps: seq<BoardMap> := [];
    var remaining := plans;
    var next := 0;
    var i := 0;
    var whole := MapRef(bs, 0, plans, inputs, 0);
    if whole.Ok? {
      assert maps + whole.value.maps == whole.value.maps;
    }
    while i < |bs|
      invariant 0 <= i <= |bs| && 0 <= next <= |inputs|
      invariant MapRef(bs, 0, plans, inputs, 0) == Prepend(maps, MapRef(bs, i, remaining, inputs, next))
    {
      var choice := ReadChoice(inputs, next, |remaining|);
      MapRefStep(bs, i, remaining, inputs, next);
      if choice.None? {
        return Err(InputExhausted);
      }
      var picked, after := choice.value.0, choice.value.1;
      var bm := BoardMap(bs[i].id, remaining[picked].groupId, remaining[picked].planId);
      PrependSnoc(maps, bm, MapRef(bs, i + 1, remaining[..picked] + remaining[picked + 1..], inputs, after));
      maps := maps + [bm];
      remaining := remaining[..picked] + remaining[picked + 1..];
      next := after;
      i := i + 1;
    }
    assert maps + [] == maps;
    MapRefValid(bs, 0, plans, Mapping([], plans), inputs, 0);
    MappingFitsPlans(bs, plans, Mapping(maps, remaining));
    return Ok(Mapping(maps, remaining));
  }

  /**
   Mapping the boards from position `i` on, after a valid mapping of the
   boards before it, gives a valid mapping of all boards.
   */
  lemma {:induction false} MapRefValid(boards: seq<Board>, i: nat, plans: seq<GroupPlan>, m: Mapping,
                                       inputs: seq<Input>, next: nat)
    requires i <= |boards| && next <= |inputs|
    requires ValidMapping(boards[..i], plans, m)
    ensures var r := Prepend(m.maps, MapRef(boards, i, m.remaining, inputs, next));
            r.Ok? ==> ValidMapping(boards, plans, r.value)
    decreases |boards| - i
  {
    if i == |boards| {
      assert boards[..i] == boards;
      assert m.maps + [] == m.maps;
    } else if NextChoice(inputs, next, |m.remaining|).Some? {
      var p := NextChoice(inputs, next, |m.remaining|).value.0;
      var after := NextChoice(inputs, next, |m.remaining|).value.1;
      var bm := BoardMap(boards[i].id, m.remaining[p].groupId, m.remaining[p].planId);
      var m' := Mapping(m.maps + [bm], m.remaining[..p] + m.remaining[p + 1..]);
      ChoiceKeepsMapping(boards, i, plans, m, p);
      MapRefValid(boards, i + 1, plans, m', inputs, after);
      MapRefStep(boards, i, m.remaining, inputs, next);
      PrependSnoc(m.maps, bm, MapRef(boards, i + 1, m'.remaining, inputs, after));
    } else {
      MapRefStep(boards, i, m.remaining, inputs, next);
    }
  }

  /** A first line `0` names the first remaining plan. */
  lemma ZeroPicksFirst(inputs: seq<Input>, next: nat, count: nat)
    requires next < |inputs| && inputs[next] == Parsed(0) && 0 < count
    ensures NextChoice(inputs, next, count) == Some((0, next + 1))
  {
  }

  /** Each board mapped to the plan at the same position. */
  function InOrder(boards: seq<Board>, plans: seq<GroupPlan>): (maps: seq<BoardMap>)
    requires |boards| <= |plans|
    ensures |maps| == |boards|
    ensures forall k :: 0 <= k < |boards| ==>
              maps[k] == BoardMap(boards[k].id, plans[k].groupId, plans[k].planId)
  {
    seq(|boards|, k requires 0 <= k < |boards| => BoardMap(boards[k].id, plans[k].groupId, plans[k].planId))
  }

  /** Mapping boards to plans in order maps the first board to the first plan, then the rest in order. */
  lemma InOrderCons(boards: seq<Board>, plans: seq<GroupPlan>)
    requires 0 < |boards| <= |plans|
    ensures InOrder(boards, plans)
            == [BoardMap(boards[0].id, plans[0].groupId, plans[0].planId)] + InOrder(boards[1..], plans[1..])
  {
    var rest := InOrder(boards[1..], plans[1..]);
    forall k | 0 < k < |boards|
      ensures rest[k - 1] == BoardMap(boards[k].id, plans[k].groupId, plans[k].planId)
    {
      assert boards[1..][k - 1] == boards[k] && plans[1..][k - 1] == plans[k];
    }
  }

  /**
   When the operator answers `0` to every prompt and there are enough
   plans, mapping succeeds and the boards take the remaining plans in order.
   */
  lemma {:induction false} FirstChoicesMapInOrder(boards: seq<Board>, i: nat, remaining: seq<GroupPlan>,
                                                  inputs: seq<Input>, next: nat)
    requires i <= |boards| && next + (|boards| - i) <= |inputs|
    requires |boards| - i <= |remaining|
    requires forall k :: next <= k < next + (|boards| - i) ==> inputs[k] == Parsed(0)
    ensures var r := MapRef(boards, i, remaining, inputs, next);
            r.Ok? && r.value.maps == InOrder(boards[i..], remaining)
    decreases |boards| - i
  {
    if i < |boards| {
      ZeroPicksFirst(inputs, next, |remaining|);
      var rest := remaining[1..];
      assert remaining[..0] + remaining[1..] == rest;
      FirstChoicesMapInOrder(boards, i + 1, rest, inputs, next + 1);
      MapRefStep(boards, i, remaining, inputs, next);
      InOrderCons(boards[i..], remaining);
      assert boards[i..][1..] == boards[i + 1..];
    }
  }

  /**
   Mapping the next board to the remaining plan at `picked` and taking that
   plan off the offer keeps the mapping valid for one more board.
   */
  lemma ChoiceKeepsMapping(boards: seq<Board>, i: nat, plans: seq<GroupPlan>, m: Mapping, picked: nat)
    requires i < |boards| && picked < |m.remaining|
    requires ValidMapping(boards[..i], plans, m)
    ensures var bm := BoardMap(boards[i].id, m.remaining[picked].groupId, m.remaining[picked].planId);
            ValidMapping(boards[..i + 1], plans,
                         Mapping(m.maps + [bm], m.remaining[..picked] + m.remaining[picked + 1..]))
  {
    var bm := BoardMap(boards[i].id, m.remaining[picked].groupId, m.remaining[picked].planId);
    var rest := m.remaining[..picked] + m.remaining[picked + 1..];
    assert PlanOf(bm) == m.remaining[picked];
    MapSeqSnoc(m.maps, bm, PlanOf);
    assert m.remaining == m.remaining[..picked] + [m.remaining[picked]] + m.remaining[picked + 1..];
    assert multiset(m.remaining) == multiset(rest) + multiset{PlanOf(bm)};
    assert multiset(MapSeq(m.maps + [bm], PlanOf)) == multiset(MapSeq(m.maps, PlanOf)) + multiset{PlanOf(bm)};
  }

  /** A valid mapping never has more boards than there were plans. */
  lemma MappingFitsPlans(boards: seq<Board>, plans: seq<GroupPlan>, m: Mapping)
    requires ValidMapping(boards, plans, m)
    ensures |boards| <= |plans|
  {
    var chosen := multiset(MapSeq(m.maps, PlanOf));
    assert |chosen| == |boards|;
    assert |chosen + multiset(m.remaining)| == |chosen| + |multiset(m.remaining)|;
    assert |multiset(plans)| == |plans|;
  }

  /** No two entries of `ps` share a plan id. */
  predicate UniquePlanIds(ps: seq<GroupPlan>) {
    forall i, j :: 0 <= i < j < |ps| ==> ps[i].planId != ps[j].planId
  }

  /** A value found at two positions occurs at least twice. */
  lemma CountAtLeastTwo<T>(s: seq<T>, i: nat, j: nat)
    requires i < j < |s| && s[i] == s[j]
    ensures multiset(s)[s[i]] >= 2
  {
    assert s == s[..j] + [s[j]] + s[j + 1..];
    assert s[..j][i] == s[i];
    assert s[i] in multiset(s[..j]);
  }

  /** Without repeated plan ids no plan occurs twice. */
  lemma {:induction false} UniqueCountAtMostOne(ps: seq<GroupPlan>, x: GroupPlan)
    requires UniquePlanIds(ps)
    ensures multiset(ps)[x] <= 1
  {
    if |ps| > 0 {
      var front := ps[..|ps| - 1];
      assert ps == front + [ps[|ps| - 1]];
      assert UniquePlanIds(front);
      UniqueCountAtMostOne(front, x);
      if ps[|ps| - 1] == x {
        assert x !in front;
      }
    }
  }

  /** When the discovered plans have distinct ids, no plan id appears in two board maps. */
  lemma NoPlanMappedTwice(boards: seq<Board>, plans: seq<GroupPlan>, m: Mapping)
    requires ValidMapping(boards, plans, m) && UniquePlanIds(plans)
    ensures forall i, j :: 0 <= i < j < |m.maps| ==> m.maps[i].graphPlanId != m.maps[j].graphPlanId
  {
    var chosen := MapSeq(m.maps, PlanOf);
    forall i, j | 0 <= i < j < |m.maps|
      ensures m.maps[i].graphPlanId != m.maps[j].graphPlanId
    {
      if m.maps[i].graphPlanId == m.maps[j].graphPlanId {
        var a := chosen[i];
        var b := chosen[j];
        assert a in multiset(plans) && b in multiset(plans);
        var ka :| 0 <= ka < |plans| && plans[ka] == a;
        var kb :| 0 <= kb < |plans| && plans[kb] == b;
        assert ka == kb;
        CountAtLeastTwo(chosen, i, j);
        UniqueCountAtMostOne(plans, a);
        assert false;
      }
    }
  }

  /**
   `GetPlanForBoard`: the plan id and group id of the first map for
   `boardId`; when there is none, the default map's two missing ids.
   */
  function PlanForBoard(maps: seq<BoardMap>, boardId: string): (r: (Option<string>, Option<string>))
    ensures (forall k :: 0 <= k < |maps| ==> maps[k].trelloBoardId != boardId) ==> r == (None, None)
    ensures forall k :: 0 <= k < |maps| && maps[k].trelloBoardId == boardId
                        && (forall j :: 0 <= j < k ==> maps[j].trelloBoardId != boardId)
                        ==> r == (Some(maps[k].graphPlanId), Some(maps[k].graphGroupId))
  {
    match FirstIndex(maps, (m: BoardMap) => m.trelloBoardId == boardId)
    case None => (None, None)
    case Some(k) => (Some(maps[k].graphPlanId), Some(maps[k].graphGroupId))
  }

  /**
   After a mapping of boards with distinct ids, looking up a board finds
   the plan chosen for it, and looking up any other id finds nothing.
   */
  lemma PlanForMappedBoard(boards: seq<Board>, plans: seq<GroupPlan>, m: Mapping, i: nat)
    requires ValidMapping(boards, plans, m)
    requires forall a, b :: 0 <= a < b < |boards| ==> boards[a].id != boards[b].id
    requires i < |boards|
    ensures PlanForBoard(m.maps, boards[i].id) == (Some(m.maps[i].graphPlanId), Some(m.maps[i].graphGroupId))
  {
  }

  /** A board id that no board carries has no plan. */
  lemma PlanForUnmappedBoard(boards: seq<Board>, plans: seq<GroupPlan>, m: Mapping, boardId: string)
    requires ValidMapping(boards, plans, m)
    requires forall a :: 0 <= a < |boards| ==> boards[a].id != boardId
    ensures PlanForBoard(m.maps, boardId) == (None, None)
  {
  }
}

=== FILE: boards.dfy ===
/**
 The containers of the source service: organizations list their boards,
 a board holds its lists in order, a list holds its cards in order.
 */
module Boards {
  import opened Cards

  datatype TList = TList(id: string, name: string, closed: bool, cards: seq<Card>)

  datatype Board = Board(id: string, name: string, lists: seq<TList>)

  datatype Org = Org(id: string, displayName: string, idBoards: seq<string>, domainName: string, membersCount: int)
}

=== FILE: cards.dfy ===
/**
 Source-service cards, with the two ways the source builds them: from the
 fields of a card request, and as a copy that carries fetched comments.
 */
module Cards {
  import opened Basics
  import opened CheckLists
  import opened Attachments
  import opened Comments

  datatype CardLabel = CardLabel(id: string, name: string, color: string)

  datatype Card = Card(
    isArchived: bool,
    id: string,
    idList: string,
    name: string,
    description: string,
    start: Option<DateTime>,
    due: Option<DateTime>,
    labels: seq<CardLabel>,
    attachments: seq<Attachment>,
    comments: seq<Comment>,
    checkLists: seq<CheckList>)
  {
    /** A card is closed exactly when it is archived. */
    predicate Closed() {
      isArchived
    }
  }

  /**
   The primary `TCard` constructor: every argument is stored in its field,
   both timestamps are present, and the card starts without comments.
   */
  function NewCard(id: string, idList: string, name: string, description: string, isArchived: bool,
                   start: DateTime, due: DateTime, labels: seq<CardLabel>, checkLists: seq<CheckList>,
                   attachments: seq<Attachment>): (c: Card)
    ensures c.id == id && c.idList == idList && c.name == name && c.description == description
    ensures c.isArchived == isArchived && c.start == Some(start) && c.due == Some(due)
    ensures c.labels == labels && c.checkLists == checkLists && c.attachments == attachments
    ensures c.comments == []
    ensures c.Closed() == isArchived
  {
    Card(isArchived, id, idList, name, description, Some(start), Some(due), labels, attachments, [], checkLists)
  }

  /**
   The copy-with-comments `TCard` constructor: the copy has exactly the
   supplied comments and agrees with the original card on every other field.
   */
  function WithComments(card: Card, comments: seq<Comment>): (c: Card)
    ensures c.comments == comments
    ensures c.(comments := card.comments) == card
    ensures c.Closed() == card.Closed()
  {
    card.(comments := comments)
  }

  /** Copying twice keeps only the last comment list, and copying back the original comments restores the card. */
  lemma WithCommentsRoundTrip(card: Card, first: seq<Comment>, second: seq<Comment>)
    ensures WithComments(WithComments(card, first), second) == WithComments(card, second)
    ensures WithComments(WithComments(card, first), card.comments) == card
  {
  }
}

=== FILE: checklists.dfy ===
/**
 Card checklists and their flattening. The target planner keeps a single
 checklist per task, so several source checklists are merged into one
 ordered item list whose titles carry the name of the checklist they came
 from, unless the card has exactly one checklist.
 */
module CheckLists {
  import opened Seqs

  /** The state string the source service uses for a ticked item. */
  const CompleteState: string := "complete"

  /** Text placed between a checklist's name and an item's name. */
  const NameSeparator: string := " - "

  datatype CheckItem = CheckItem(id: string, name: string, state: string) {
    /** An item is ticked when its state is exactly "complete" (case matters). */
    predicate Checked()
      ensures Checked() <==> state == "complete"
    {
      state == CompleteState
    }
  }

  datatype CheckList = CheckList(id: string, name: string, checkItems: seq<CheckItem>)

  /** The title an item gets when checklists are merged. */
  function PrefixedName(listName: string, itemName: string): string {
    listName + NameSeparator + itemName
  }

  /** The merged copy of one item: same id and state, name prefixed by its list's name. */
  function Prefixed(listName: string, item: CheckItem): CheckItem {
    CheckItem(item.id, PrefixedName(listName, item.name), item.state)
  }

  /** The merged copies of `items`, all taken from the list called `listName`. */
  function PrefixedItems(listName: string, items: seq<CheckItem>): (r: seq<CheckItem>)
    ensures |r| == |items|
  {
    seq(|items|, k requires 0 <= k < |items| => Prefixed(listName, items[k]))
  }

  /** Reference definition of the merged list: each checklist's prefixed items, in checklist order. */
  function PrefixedAll(cls: seq<CheckList>): seq<CheckItem> {
    if |cls| == 0 then []
    else PrefixedAll(cls[..|cls| - 1]) + PrefixedItems(cls[|cls| - 1].name, cls[|cls| - 1].checkItems)
  }

  /** All items of all checklists, in order, with their names untouched. */
  function ConcatItems(cls: seq<CheckList>): seq<CheckItem> {
    if |cls| == 0 then []
    else ConcatItems(cls[..|cls| - 1]) + cls[|cls| - 1].checkItems
  }

  /** The number of items over all checklists. */
  function TotalItems(cls: seq<CheckList>): nat {
    if |cls| == 0 then 0
    else TotalItems(cls[..|cls| - 1]) + |cls[|cls| - 1].checkItems|
  }

  /** Where the items of checklist `i` start in a merged list. */
  function Offset(cls: seq<CheckList>, i: nat): nat
    requires i <= |cls|
  {
    TotalItems(cls[..i])
  }

  /**
   `TCheckList.FlattenCheckLists`: a single checklist is returned as it is;
   otherwise every item of every checklist is copied, in order, with its
   name prefixed by its checklist's name.
   */
  method FlattenCheckLists(cls: seq<CheckList>) returns (r: seq<CheckItem>)
    ensures |cls| == 1 ==> r == cls[0].checkItems
    ensures |cls| != 1 ==> r == PrefixedAll(cls)
  {
    if |cls| == 1 {
      return cls[0].checkItems;
    }
    r := [];
    var i := 0;
    while i < |cls|
      invariant 0 <= i <= |cls|
      invariant r == PrefixedAll(cls[..i])
    {
      var cl := cls[i];
      var j := 0;
      while j < |cl.checkItems|
        invariant 0 <= j <= |cl.checkItems|
        invariant r == PrefixedAll(cls[..i]) + PrefixedItems(cl.name, cl.checkItems[..j])
      {
        var item := cl.checkItems[j];
        assert PrefixedItems(cl.name, cl.checkItems[..j + 1])
            == PrefixedItems(cl.name, cl.checkItems[..j]) + [Prefixed(cl.name, item)];
        r := r + [CheckItem(item.id, PrefixedName(cl.name, item.name), item.state)];
        j := j + 1;
      }
      assert cl.checkItems[..j] == cl.checkItems;
      assert cls[..i + 1][..i] == cls[..i];
      i := i + 1;
    }
    assert cls[..i] == cls;
  }

  /** A merged list holds exactly as many items as all checklists together. */
  lemma {:induction false} PrefixedAllLength(cls: seq<CheckList>)
    ensures |PrefixedAll(cls)| == TotalItems(cls)
  {
    if |cls| > 0 {
      PrefixedAllLength(cls[..|cls| - 1]);
    }
  }

  /**
   Order and content of a merged list: item `j` of checklist `i` lands at
   position `Offset(cls, i) + j`, keeps its id and state, and is named
   `<checklist name> - <item name>`.
   */
  lemma {:induction false} PrefixedAllAt(cls: seq<CheckList>, i: nat, j: nat)
    requires i < |cls| && j < |cls[i].checkItems|
    ensures Offset(cls, i) + j < |PrefixedAll(cls)|
    ensures PrefixedAll(cls)[Offset(cls, i) + j]
         == CheckItem(cls[i].checkItems[j].id,
                      cls[i].name + " - " + cls[i].checkItems[j].name,
                      cls[i].checkItems[j].state)
  {
    var n := |cls| - 1;
    var front := cls[..n];
    PrefixedAllLength(front);
    if i < n {
      PrefixedAllAt(front, i, j);
      assert front[..i] == cls[..i];
      assert front[i] == cls[i];
    } else {
      assert cls[..i] == front;
    }
  }

  /** Merging only renames: the merged list and the plain concatenation agree on ids and states, position by position. */
  lemma {:induction false} PrefixedAllKeepsIdsAndStates(cls: seq<CheckList>)
    ensures |PrefixedAll(cls)| == |ConcatItems(cls)|
    ensures forall k :: 0 <= k < |ConcatItems(cls)| ==>
              PrefixedAll(cls)[k].id == ConcatItems(cls)[k].id
              && PrefixedAll(cls)[k].state == ConcatItems(cls)[k].state
  {
    if |cls| > 0 {
      PrefixedAllKeepsIdsAndStates(cls[..|cls| - 1]);
    }
  }

  /** The plain concatenation also holds exactly as many items as all checklists together. */
  lemma {:induction false} ConcatItemsLength(cls: seq<CheckList>)
    ensures |ConcatItems(cls)| == TotalItems(cls)
  {
    if |cls| > 0 {
      ConcatItemsLength(cls[..|cls| - 1]);
    }
  }
}

=== FILE: comments.dfy ===
/**
 Card comments as read from the source service, and the one-line text a
 comment becomes when it is posted as a reply on the target side.
 */
module Comments {
  import opened Basics

  /** A source-service user: id, display name and handle. */
  datatype Member = Member(id: string, fullName: string, userName: string)

  /** The payload of a comment action; only its text is kept. */
  datatype CommentData = CommentData(text: string)

  datatype Comment = Comment(id: string, date: DateTime, memberCreator: Member, data: CommentData)

  /** The tag every migrated comment starts with. */
  const Tag: string := "[tsync]["

  /** `TCommentData(text)`: the text is stored as given. */
  function NewCommentData(text: string): (d: CommentData)
    ensures d.text == text
  {
    CommentData(text)
  }

  /**
   `TComment(id, memberCreator, data)`: the three arguments are stored and
   the date is never assigned, so it keeps the default timestamp.
   */
  function NewComment(id: string, memberCreator: Member, data: CommentData): (c: Comment)
    ensures c.id == id && c.memberCreator == memberCreator && c.data == data
    ensures c.date == DefaultDateTime
  {
    Comment(id, DefaultDateTime, memberCreator, data)
  }

  /** Everything a rendered comment shows before its text. */
  function Header(c: Comment, fmt: DateTime -> string): string {
    Tag + fmt(c.date) + "] " + c.memberCreator.fullName + " (" + c.memberCreator.userName + "): "
  }

  /**
   `TComment.ToString`: the tag, the formatted date, the author's full name
   and handle, then the text. The date format is a parameter (`fmt`).
   */
  function Render(c: Comment, fmt: DateTime -> string): (s: string)
    ensures |s| == |Header(c, fmt)| + |c.data.text|
    ensures s[..|Tag|] == Tag
    ensures s[..|s| - |c.data.text|] == Header(c, fmt)
    ensures s[|s| - |c.data.text|..] == c.data.text
  {
    Header(c, fmt) + c.data.text
  }

  /**
   A rendered comment determines its text: two comments with the same date
   and author whose renderings agree carry the same text.
   */
  lemma RenderDeterminesText(c1: Comment, c2: Comment, fmt: DateTime -> string)
    requires c1.date == c2.date && c1.memberCreator == c2.memberCreator
    requires Render(c1, fmt) == Render(c2, fmt)
    ensures c1.data.text == c2.data.text
  {
  }

  /**
   A comment built with the two constructors renders with the default date
   and ends with the text it was given.
   */
  lemma ConstructedCommentRendering(id: string, m: Member, text: string, fmt: DateTime -> string)
    ensures Render(NewComment(id, m, NewCommentData(text)), fmt)
         == Tag + fmt(DefaultDateTime) + "] " + m.fullName + " (" + m.userName + "): " + text
  {
  }
}

=== FILE: file_meta.dfy ===
/**
 The local bookkeeping record kept for every attachment while it is
 downloaded and uploaded. The identifier, the attachment snapshot and the
 originating board are fixed when the record is built; the completion flag,
 the content hash and the uploaded URL can change afterwards.
 */
module FileMetas {
  import opened Basics
  import opened Attachments

  datatype FileMeta = FileMeta(
    fileId: Guid,
    attachmentData: Attachment,
    complete: bool,
    graphUrl: Option<string>,
    hash: Option<string>,
    originBoard: string)

  /** Two records describe the same file: they agree on every init-only field. */
  predicate SameIdentity(a: FileMeta, b: FileMeta) {
    a.fileId == b.fileId && a.attachmentData == b.attachmentData && a.originBoard == b.originBoard
  }

  /**
   The fresh `FileMeta` constructor: draws a new identifier, is not complete,
   has neither hash nor uploaded URL, and stores the attachment and the board.
   */
  function NewFileMeta(supply: GuidSupply, attachment: Attachment, originBoard: string): (r: (FileMeta, GuidSupply))
    ensures r.0.attachmentData == attachment && r.0.originBoard == originBoard
    ensures !r.0.complete && r.0.hash == None && r.0.graphUrl == None
    ensures supply.next <= r.0.fileId.serial < r.1.next
  {
    var (id, rest) := NewGuid(supply);
    (FileMeta(id, attachment, false, None, None, originBoard), rest)
  }

  /**
   The restoring `FileMeta` constructor: identifier, attachment, board,
   completion flag and hash are stored verbatim (the last two default to
   not complete and no hash); the uploaded URL is left unset.
   */
  function RestoreFileMeta(fileId: Guid, attachment: Attachment, originBoard: string,
                           complete: bool := false, hash: Option<string> := None): (m: FileMeta)
    ensures m.fileId == fileId && m.attachmentData == attachment && m.originBoard == originBoard
    ensures m.complete == complete && m.hash == hash
    ensures m.graphUrl == None
  {
    FileMeta(fileId, attachment, complete, None, hash, originBoard)
  }

  /** Leaving out the optional arguments gives a record that is not complete and has no hash. */
  lemma RestoreDefaults(fileId: Guid, attachment: Attachment, originBoard: string)
    ensures !RestoreFileMeta(fileId, attachment, originBoard).complete
    ensures RestoreFileMeta(fileId, attachment, originBoard).hash == None
  {
  }

  /**
   Builds fresh records for `sources` (attachment, board) one after the
   other from one supply, as repeated fresh construction does. Identifiers
   come out strictly increasing, so no two records share one.
   */
  function NewFileMetas(supply: GuidSupply, sources: seq<(Attachment, string)>): (r: (seq<FileMeta>, GuidSupply))
    ensures |r.0| == |sources| && supply.next <= r.1.next
    ensures forall i :: 0 <= i < |r.0| ==>
              r.0[i].attachmentData == sources[i].0 && r.0[i].originBoard == sources[i].1
              && !r.0[i].complete && r.0[i].hash == None && r.0[i].graphUrl == None
    ensures forall i :: 0 <= i < |r.0| ==> supply.next <= r.0[i].fileId.serial < r.1.next
    ensures forall i, j :: 0 <= i < j < |r.0| ==> r.0[i].fileId.serial < r.0[j].fileId.serial
    decreases |sources|
  {
    if |sources| == 0 then ([], supply)
    else
      var (first, next) := NewFileMeta(supply, sources[0].0, sources[0].1);
      var (rest, last) := NewFileMetas(next, sources[1..]);
      ([first] + rest, last)
  }

  /** Records built from one supply never share an identifier. */
  lemma FreshIdsDiffer(supply: GuidSupply, sources: seq<(Attachment, string)>, i: nat, j: nat)
    requires i < j < |sources|
    ensures NewFileMetas(supply, sources).0[i].fileId != NewFileMetas(supply, sources).0[j].fileId
  {
  }

  /** Identifiers drawn later from an advanced supply differ from every earlier one. */
  lemma LaterSupplyIsFresh(supply: GuidSupply, a: seq<(Attachment, string)>, b: seq<(Attachment, string)>, i: nat, j: nat)
    requires i < |a| && j < |b|
    ensures NewFileMetas(NewFileMetas(supply, a).1, b).0[j].fileId != NewFileMetas(supply, a).0[i].fileId
  {
  }

  /** An assignment to one of the settable properties. */
  datatype Update = SetComplete(complete: bool) | SetGraphUrl(url: Option<string>) | SetHash(hash: Option<string>)

  /** Performs one assignment; only the named property changes. */
  function Apply(m: FileMeta, u: Update): (r: FileMeta)
    ensures SameIdentity(r, m)
    ensures u.SetComplete? ==> r.complete == u.complete && r.graphUrl == m.graphUrl && r.hash == m.hash
    ensures u.SetGraphUrl? ==> r.graphUrl == u.url && r.complete == m.complete && r.hash == m.hash
    ensures u.SetHash? ==> r.hash == u.hash && r.complete == m.complete && r.graphUrl == m.graphUrl
  {
    match u
    case SetComplete(c) => m.(complete := c)
    case SetGraphUrl(url) => m.(graphUrl := url)
    case SetHash(h) => m.(hash := h)
  }

  /** Performs assignments in order. */
  function ApplyAll(m: FileMeta, us: seq<Update>): FileMeta
    decreases |us|
  {
    if |us| == 0 then m else ApplyAll(Apply(m, us[0]), us[1..])
  }

  /** No sequence of assignments changes the identifier, the attachment or the board. */
  lemma {:induction false} InitOnlyFieldsStay(m: FileMeta, us: seq<Update>)
    ensures SameIdentity(ApplyAll(m, us), m)
    decreases |us|
  {
    if |us| > 0 {
      InitOnlyFieldsStay(Apply(m, us[0]), us[1..]);
    }
  }

  /** Setting the uploaded URL, as the upload pass does: the URL is replaced and nothing else changes. */
  function WithGraphUrl(m: FileMeta, url: Option<string>): (r: FileMeta)
    ensures r.graphUrl == url
    ensures r.(graphUrl := m.graphUrl) == m
  {
    Apply(m, SetGraphUrl(url))
  }
}

=== FILE: seqs.dfy ===
/**
 Sequence helpers shared by the lookups and loops of the model: the first
 element matching a condition (LINQ's `First`/`FirstOrDefault`), the
 elements matching a condition in order (`where`), and element-wise mapping.
 */
module Seqs {
  import opened Basics

  /** The position of the first element of `s` that satisfies `p`, if any. */
  function FirstIndex<T>(s: seq<T>, p: T -> bool): (r: Option<nat>)
    ensures r.Some? ==> r.value < |s| && p(s[r.value])
    ensures r.Some? ==> forall j :: 0 <= j < r.value ==> !p(s[j])
    ensures r.None? <==> forall j :: 0 <= j < |s| ==> !p(s[j])
  {
    if |s| == 0 then None
    else if p(s[0]) then Some(0)
    else
      match FirstIndex(s[1..], p)
      case None => None
      case Some(k) => Some(k + 1)
  }

  /** The elements of `s` that satisfy `p`, in their original order. */
  function Filter<T>(s: seq<T>, p: T -> bool): (r: seq<T>)
    ensures |r| <= |s|
    ensures forall x :: x in r ==> x in s && p(x)
    ensures forall i :: 0 <= i < |s| && p(s[i]) ==> s[i] in r
  {
    if |s| == 0 then []
    else Filter(s[..|s| - 1], p) + (if p(s[|s| - 1]) then [s[|s| - 1]] else [])
  }

  /** Filtering one more element appends it exactly when it satisfies `p`. */
  lemma FilterSnoc<T>(s: seq<T>, x: T, p: T -> bool)
    ensures Filter(s + [x], p) == Filter(s, p) + (if p(x) then [x] else [])
  {
  }

  /** `f` applied to every element of `s`, in order. */
  function MapSeq<T, U>(s: seq<T>, f: T -> U): (r: seq<U>)
    ensures |r| == |s|
    ensures forall i :: 0 <= i < |s| ==> r[i] == f(s[i])
  {
    seq(|s|, i requires 0 <= i < |s| => f(s[i]))
  }

  /** Mapping distributes over appending one element. */
  lemma MapSeqSnoc<T, U>(s: seq<T>, x: T, f: T -> U)
    ensures MapSeq(s + [x], f) == MapSeq(s, f) + [f(x)]
  {
  }
}

=== FILE: sync_run.dfy ===
/**
 One sync run: for every board, in order, its lists become buckets of the
 board's mapped plan and its cards become tasks in those buckets; the
 comments of a created task are posted, in order, as replies on its
 discussion thread. A card whose task is not created is recorded as failed
 and the run goes on; a bucket that is not created ends the run. The remote
 calls are oracles, given the running number of the call so that repeated
 calls may answer differently.
 */
module SyncRun {
  import opened Basics
  import opened Seqs
  import opened Comments
  import opened Cards
  import opened Boards
  import opened FileMetas
  import opened BoardMaps
  import opened TaskPayloads

  /** The answer to a task creation: the new task's id and its thread's id, either possibly missing. */
  datatype TaskResponse = TaskResponse(taskId: Option<string>, threadId: Option<string>)

  /** The remote calls of a run. */
  datatype Oracles = Oracles(
    createBucket: (nat, Option<string>, string) -> Option<string>,  // call number, plan id, list name
    createTask: (nat, TaskPayload) -> Option<TaskResponse>,         // call number, task
    encode: string -> string,                                       // escapes a URL for a reference key
    fmt: DateTime -> string)                                        // formats a comment date

  /** A reply posted on a task's thread, in the group that owns the plan. */
  datatype Reply = Reply(groupId: Option<string>, threadId: string, text: string)

  /** A created task, keyed by the id the target service gave it. */
  datatype PostedTask = PostedTask(taskId: string, task: TaskPayload)

  /** The counters and collections a run keeps. */
  datatype Tally = Tally(
    boards: nat,
    lists: nat,
    cards: nat,
    posted: seq<PostedTask>,
    withAttachments: seq<string>,
    failed: seq<string>,
    replies: seq<Reply>)

  const EmptyTally: Tally := Tally(0, 0, 0, [], [], [], [])

  datatype SyncError =
    | Payload(error: PayloadError)     // building a task threw
    | DuplicateTaskId(taskId: string)  // the posted-task dictionary already had the returned id

  /** How far a run got: all the way, up to a bucket it could not create, or up to an exception. */
  datatype Stop = Completed | BucketFailed(planId: Option<string>, listName: string) | Crashed(error: SyncError)

  datatype Run = Run(tally: Tally, stop: Stop)

  datatype Refusal =
    | MissingInformation  // boards, board maps, uploaded records or plans are missing
    | NotConfirmed        // the operator did not type the confirmation word

  /** The word the operator must type to start a run. */
  const Confirmation: string := "understood"

  /** The ids of the created tasks, in creation order. */
  function TaskIds(posted: seq<PostedTask>): (ids: seq<string>)
    ensures |ids| == |posted|
    ensures forall k :: 0 <= k < |posted| ==> ids[k] == posted[k].taskId
  {
    seq(|posted|, k requires 0 <= k < |posted| => posted[k].taskId)
  }

  /**
   The two dictionaries of created tasks are well formed: no task id twice
   in either, and every task counted as carrying attachments is a created task.
   */
  predicate Consistent(t: Tally) {
    && (forall i, j :: 0 <= i < j < |t.posted| ==> t.posted[i].taskId != t.posted[j].taskId)
    && (forall i, j :: 0 <= i < j < |t.withAttachments| ==> t.withAttachments[i] != t.withAttachments[j])
    && (forall id :: id in t.withAttachments ==> id in TaskIds(t.posted))
  }

  /**
   Every counted card is either a created task or a failed card id, except
   the card an exception interrupted, which is neither.
   */
  predicate Accounted(r: Run) {
    if r.stop.Crashed? then |r.tally.posted| + |r.tally.failed| + 1 == r.tally.cards
    else |r.tally.posted| + |r.tally.failed| == r.tally.cards
  }

  /** A run only adds to what it was given: earlier entries are kept, counters never go back. */
  predicate Extends(t: Tally, u: Tally) {
    && t.boards <= u.boards && t.lists <= u.lists && t.cards <= u.cards
    && t.posted <= u.posted && t.withAttachments <= u.withAttachments
    && t.failed <= u.failed && t.replies <= u.replies
  }

  /** The replies for a created task's thread: one per comment, in comment order. */
  function CommentReplies(groupId: Option<string>, threadId: string, comments: seq<Comment>,
                          fmt: DateTime -> string): (r: seq<Reply>)
    ensures |r| == |comments|
    ensures forall k :: 0 <= k < |comments| ==>
              r[k] == Reply(groupId, threadId, Render(comments[k], fmt))
  {
    seq(|comments|, k requires 0 <= k < |comments| => Reply(groupId, threadId, Render(comments[k], fmt)))
  }

  /** Each reply ends with the text of the comment it carries. */
  lemma RepliesCarryCommentTexts(groupId: Option<string>, threadId: string, comments: seq<Comment>,
                                 fmt: DateTime -> string, k: nat)
    requires k < |comments|
    ensures var text := CommentReplies(groupId, threadId, comments, fmt)[k].text;
            && |comments[k].data.text| <= |text|
            && text[|text| - |comments[k].data.text|..] == comments[k].data.text
  {
  }

  /**
   One card: counts it, builds its task, creates it, and either records the
   task (and posts the card's comments when it has a thread) or
   records the card as failed.
   */
  function ProcessCard(o: Oracles, plan: (Option<string>, Option<string>), bucket: string,
                       uploaded: seq<FileMeta>, card: Card, t: Tally): (r: Run)
    ensures r.tally.cards == t.cards + 1
    ensures r.tally.boards == t.boards && r.tally.lists == t.lists
    ensures !r.stop.BucketFailed?
    ensures r.stop.Completed? ==>
              || (&& |r.tally.posted| == |t.posted| + 1 && r.tally.failed == t.failed)
              || (&& r.tally.posted == t.posted && r.tally.failed == t.failed + [card.id]
                  && r.tally.replies == t.replies)
    ensures r.stop.Crashed? ==> r.tally.posted == t.posted && r.tally.failed == t.failed
                                && r.tally.replies == t.replies
    ensures Extends(t, r.tally)
    ensures Consistent(t) ==> Consistent(r.tally)
  {
    var counted := t.(cards := t.cards + 1);
    match BuildTask(card, plan.0, bucket, uploaded, o.encode)
    case Err(e) => Run(counted, Crashed(Payload(e)))
    case Ok(task) =>
      var resp := o.createTask(|t.posted| + |t.failed|, task);
      if resp.Some? && resp.value.taskId.Some? then
        var id := resp.value.taskId.value;
        if id in TaskIds(t.posted) then Run(counted, Crashed(DuplicateTaskId(id)))
        else
          var created := counted.(
            posted := t.posted + [PostedTask(id, task)],
            withAttachments := t.withAttachments + (if |card.attachments| > 0 then [id] else []));
          assert TaskIds(created.posted) == TaskIds(t.posted) + [id];
          if |card.comments| > 0 && resp.value.threadId.Some? then
            Run(created.(replies := t.replies + CommentReplies(plan.1, resp.value.threadId.value, card.comments, o.fmt)),
                Completed)
          else Run(created, Completed)
      else Run(counted.(failed := t.failed + [card.id]), Completed)
  }

  /**
   Comment posting for one card: when its task is created with a thread,
   exactly its comments are appended as replies, in order, to the plan's
   group; otherwise no reply is posted.
   */
  lemma CardReplies(o: Oracles, plan: (Option<string>, Option<string>), bucket: string,
                    uploaded: seq<FileMeta>, card: Card, t: Tally)
    requires BuildTask(card, plan.0, bucket, uploaded, o.encode).Ok?
    ensures var task := BuildTask(card, plan.0, bucket, uploaded, o.encode).value;
            var resp := o.createTask(|t.posted| + |t.failed|, task);
            var r := ProcessCard(o, plan, bucket, uploaded, card, t);
            && (resp.Some? && resp.value.taskId.Some? && resp.value.threadId.Some? && r.stop.Completed? ==>
                  r.tally.replies == t.replies + CommentReplies(plan.1, resp.value.threadId.value, card.comments, o.fmt))
            && (!(resp.Some? && resp.value.taskId.Some? && resp.value.threadId.Some?) ==> r.tally.replies == t.replies)
            && (resp.Some? && resp.value.taskId.Some? && r.stop.Completed? ==>
                  r.tally.posted == t.posted + [PostedTask(resp.value.taskId.value, task)])
            && (!(resp.Some? && resp.value.taskId.Some?) ==> r.tally.failed == t.failed + [card.id])
            && (resp.Some? && resp.value.taskId.Some? && r.stop.Completed? ==>
                  r.tally.withAttachments
                  == t.withAttachments + (if |card.attachments| > 0 then [resp.value.taskId.value] else []))
            && (!(resp.Some? && resp.value.taskId.Some? && r.stop.Completed?) ==>
                  r.tally.withAttachments == t.withAttachments)
  {
  }

  /**
   When one card ends the run: exactly when building its references throws
   (a missing uploaded record or a repeated reference key), with the error
   of the first attachment that fails, or when the service returns a task
   id already posted.
   */
  lemma CardCrashes(o: Oracles, plan: (Option<string>, Option<string>), bucket: string,
                    uploaded: seq<FileMeta>, card: Card, t: Tally)
    ensures var built := BuildTask(card, plan.0, bucket, uploaded, o.encode);
            var r := ProcessCard(o, plan, bucket, uploaded, card, t);
            && (built.Err? ==>
                  && |card.attachments| > 0
                  && r.stop == Crashed(Payload(References(card.attachments, uploaded, o.encode).error)))
            && (built.Ok? ==>
                  var resp := o.createTask(|t.posted| + |t.failed|, built.value);
                  && (r.stop.Crashed? <==>
                        resp.Some? && resp.value.taskId.Some? && resp.value.taskId.value in TaskIds(t.posted))
                  && (r.stop.Crashed? ==> r.stop == Crashed(DuplicateTaskId(resp.value.taskId.value))))
  {
  }

  /** The cards of `lists`, counted. */
  function CardsIn(lists: seq<TList>): nat {
    if |lists| == 0 then 0 else |lists[0].cards| + CardsIn(lists[1..])
  }

  /** The lists of all `boards`, counted. */
  function TotalLists(boards: seq<Board>): nat {
    if |boards| == 0 then 0 else |boards[0].lists| + TotalLists(boards[1..])
  }

  /** The cards of all `boards`, counted. */
  function TotalCards(boards: seq<Board>): nat {
    if |boards| == 0 then 0 else CardsIn(boards[0].lists) + TotalCards(boards[1..])
  }

  /** Every counted card so far is either a created task or a failed card id. */
  predicate Balanced(t: Tally) {
    |t.posted| + |t.failed| == t.cards
  }

  /** The cards of one bucket, in order, until one throws. */
  function RunCards(o: Oracles, plan: (Option<string>, Option<string>), bucket: string,
                    uploaded: seq<FileMeta>, cards: seq<Card>, t: Tally): (r: Run)
    ensures r.tally.boards == t.boards && r.tally.lists == t.lists
    ensures !r.stop.BucketFailed?
    ensures t.cards <= r.tally.cards <= t.cards + |cards|
    ensures r.stop.Completed? ==> r.tally.cards == t.cards + |cards|
    decreases |cards|
  {
    if |cards| == 0 then Run(t, Completed)
    else
      var step := ProcessCard(o, plan, bucket, uploaded, cards[0], t);
      if !step.stop.Completed? then step
      else RunCards(o, plan, bucket, uploaded, cards[1..], step.tally)
  }

  /** The run stopped at a bucket the service refused: its last bucket call, for that plan and list, answered nothing. */
  predicate BucketRefused(o: Oracles, r: Run)
    requires r.stop.BucketFailed?
  {
    r.tally.lists > 0 && o.createBucket(r.tally.lists - 1, r.stop.planId, r.stop.listName).None?
  }

  /**
   One list: asks for a bucket named after it in the plan and, when the
   service answers with one, runs the list's cards into it.
   */
  function RunList(o: Oracles, plan: (Option<string>, Option<string>), uploaded: seq<FileMeta>,
                   list: TList, t: Tally): (r: Run)
    ensures r.tally.boards == t.boards && r.tally.lists == t.lists + 1
    ensures t.cards <= r.tally.cards <= t.cards + |list.cards|
    ensures r.stop.Completed? ==> r.tally.cards == t.cards + |list.cards|
    ensures r.stop.BucketFailed? <==> o.createBucket(t.lists, plan.0, list.name).None?
    ensures r.stop.BucketFailed? ==> r.stop == BucketFailed(plan.0, list.name) && r.tally.cards == t.cards
  {
    var counted := t.(lists := t.lists + 1);
    match o.createBucket(t.lists, plan.0, list.name)
    case None => Run(counted, BucketFailed(plan.0, list.name))
    case Some(bucket) => RunCards(o, plan, bucket, uploaded, list.cards, counted)
  }

  /** The lists of one board, in order: a bucket each, then its cards; a missing bucket ends the run. */
  function RunLists(o: Oracles, plan: (Option<string>, Option<string>), uploaded: seq<FileMeta>,
                    lists: seq<TList>, t: Tally): (r: Run)
    ensures r.tally.boards == t.boards
    ensures t.lists <= r.tally.lists <= t.lists + |lists|
    ensures t.cards <= r.tally.cards <= t.cards + CardsIn(lists)
    ensures r.stop.Completed? ==> r.tally.lists == t.lists + |lists| && r.tally.cards == t.cards + CardsIn(lists)
    ensures r.stop.BucketFailed? ==> t.lists < r.tally.lists && r.stop.planId == plan.0 && BucketRefused(o, r)
    decreases |lists|
  {
    if |lists| == 0 then Run(t, Completed)
    else
      var step := RunList(o, plan, uploaded, lists[0], t);
      if !step.stop.Completed? then step
      else RunLists(o, plan, uploaded, lists[1..], step.tally)
  }

  /** The boards, in order, each into the plan `GetPlanForBoard` finds for it. */
  function RunBoards(o: Oracles, maps: seq<BoardMap>, uploaded: seq<FileMeta>, boards: seq<Board>, t: Tally)
    : (r: Run)
    ensures t.boards <= r.tally.boards <= t.boards + |boards|
    ensures t.lists <= r.tally.lists <= t.lists + TotalLists(boards)
    ensures t.cards <= r.tally.cards <= t.cards + TotalCards(boards)
    ensures r.stop.Completed? ==>
              && r.tally.boards == t.boards + |boards|
              && r.tally.lists == t.lists + TotalLists(boards)
              && r.tally.cards == t.cards + TotalCards(boards)
    ensures r.stop.BucketFailed? ==> t.lists < r.tally.lists && BucketRefused(o, r)
    decreases |boards|
  {
    if |boards| == 0 then Run(t, Completed)
    else
      var counted := t.(boards := t.boards + 1);
      var step := RunLists(o, PlanForBoard(maps, boards[0].id), uploaded, boards[0].lists, counted);
      if !step.stop.Completed? then step
      else RunBoards(o, maps, uploaded, boards[1..], step.tally)
  }

  /** The bucket calls of `lists` in one plan, in order: the plan id and the list name. */
  function ListCalls(planId: Option<string>, lists: seq<TList>): (calls: seq<(Option<string>, string)>)
    ensures |calls| == |lists|
    decreases |lists|
  {
    if |lists| == 0 then [] else [(planId, lists[0].name)] + ListCalls(planId, lists[1..])
  }

  /** The bucket calls of all `boards`, in order, each list in the plan its board is mapped to. */
  function BucketCalls(maps: seq<BoardMap>, boards: seq<Board>): (calls: seq<(Option<string>, string)>)
    ensures |calls| == TotalLists(boards)
    decreases |boards|
  {
    if |boards| == 0 then []
    else ListCalls(PlanForBoard(maps, boards[0].id).0, boards[0].lists) + BucketCalls(maps, boards[1..])
  }

  /**
   The position in `calls`, numbered from call `first`, of the first call
   the service refuses; `|calls|` when it grants them all.
   */
  function FirstRefusal(o: Oracles, calls: seq<(Option<string>, string)>, first: nat): (f: nat)
    ensures f <= |calls|
    decreases |calls|
  {
    if |calls| == 0 then 0
    else if o.createBucket(first, calls[0].0, calls[0].1).None? then 0
    else 1 + FirstRefusal(o, calls[1..], first + 1)
  }

  /** `FirstRefusal` finds a refused call, and every call before it was granted. */
  lemma {:induction false} FirstRefusalIsFirst(o: Oracles, calls: seq<(Option<string>, string)>, first: nat, k: nat)
    requires k <= FirstRefusal(o, calls, first) && k < |calls|
    ensures k < FirstRefusal(o, calls, first) <==> o.createBucket(first + k, calls[k].0, calls[k].1).Some?
    decreases |calls|
  {
    if k > 0 {
      FirstRefusalIsFirst(o, calls[1..], first + 1, k - 1);
    }
  }

  /** The first refusal among two runs of calls: in the first run if it has one, else in the second. */
  lemma {:induction false} FirstRefusalSplit(o: Oracles, front: seq<(Option<string>, string)>,
                                             back: seq<(Option<string>, string)>, first: nat)
    ensures var f := FirstRefusal(o, front, first);
            FirstRefusal(o, front + back, first)
            == if f < |front| then f else |front| + FirstRefusal(o, back, first + |front|)
    decreases |front|
  {
    if |front| == 0 {
      assert front + back == back;
    } else {
      assert (front + back)[0] == front[0];
      assert (front + back)[1..] == front[1..] + back;
      FirstRefusalSplit(o, front[1..], back, first + 1);
    }
  }

  /**
   A run that was to make the bucket calls `calls`, numbered from `first`,
   stopped at the first refusal: a completed run made them all and none was
   refused, a run stopped at a bucket made calls up to and including the
   first refused one, and a crashed run stopped before any refusal.
   */
  predicate StopsAtRefusal(o: Oracles, calls: seq<(Option<string>, string)>, first: nat, r: Run) {
    && first <= r.tally.lists
    && var made := r.tally.lists - first;
       var f := FirstRefusal(o, calls, first);
       match r.stop
       case Completed => made == |calls| && f == |calls|
       case BucketFailed(_, _) => made == f + 1 && f < |calls|
       case Crashed(_) => 0 < made <= f
  }

  /**
   A step that stops at the first refusal among `front`, followed (when it
   completes) by a rest that does so among `back`, stops at the first
   refusal among both.
   */
  lemma ChainCalls(o: Oracles, front: seq<(Option<string>, string)>, back: seq<(Option<string>, string)>,
                   first: nat, step: Run, rest: Run)
    requires StopsAtRefusal(o, front, first, step)
    requires step.stop.Completed? ==> StopsAtRefusal(o, back, step.tally.lists, rest)
    requires !step.stop.Completed? ==> rest == step
    ensures StopsAtRefusal(o, front + back, first, rest)
  {
    FirstRefusalSplit(o, front, back, first);
    if step.stop.Completed? {
      assert step.tally.lists == first + |front|;
    }
  }

  /** One list makes one bucket call and stops exactly when it is refused. */
  lemma RunListStopsAtRefusal(o: Oracles, plan: (Option<string>, Option<string>),
                              uploaded: seq<FileMeta>, list: TList, t: Tally)
    ensures StopsAtRefusal(o, [(plan.0, list.name)], t.lists, RunList(o, plan, uploaded, list, t))
  {
  }

  /** A board's first list runs first and, when it completes, the others follow. */
  lemma RunListsUnfold(o: Oracles, plan: (Option<string>, Option<string>), uploaded: seq<FileMeta>,
                       lists: seq<TList>, t: Tally)
    requires |lists| > 0
    ensures var step := RunList(o, plan, uploaded, lists[0], t);
            RunLists(o, plan, uploaded, lists, t)
            == if step.stop.Completed? then RunLists(o, plan, uploaded, lists[1..], step.tally) else step
  {
  }

  /** The lists of a board stop at the first bucket the service refuses. */
  lemma {:induction false} RunListsStopAtRefusal(o: Oracles, plan: (Option<string>, Option<string>),
                                                 uploaded: seq<FileMeta>, lists: seq<TList>, t: Tally)
    ensures StopsAtRefusal(o, ListCalls(plan.0, lists), t.lists, RunLists(o, plan, uploaded, lists, t))
    decreases |lists|
  {
    if |lists| > 0 {
      var step := RunList(o, plan, uploaded, lists[0], t);
      RunListStopsAtRefusal(o, plan, uploaded, lists[0], t);
      var rest := if step.stop.Completed? then RunLists(o, plan, uploaded, lists[1..], step.tally) else step;
      if step.stop.Completed? {
        RunListsStopAtRefusal(o, plan, uploaded, lists[1..], step.tally);
      }
      ChainCalls(o, [(plan.0, lists[0].name)], ListCalls(plan.0, lists[1..]), t.lists, step, rest);
      RunListsUnfold(o, plan, uploaded, lists, t);
    }
  }

  /** All boards stop at the first bucket the service refuses. */
  lemma {:induction false} RunBoardsStopAtRefusal(o: Oracles, maps: seq<BoardMap>, uploaded: seq<FileMeta>,
                                                  boards: seq<Board>, t: Tally)
    ensures StopsAtRefusal(o, BucketCalls(maps, boards), t.lists, RunBoards(o, maps, uploaded, boards, t))
    decreases |boards|
  {
    if |boards| > 0 {
      var counted := t.(boards := t.boards + 1);
      var plan := PlanForBoard(maps, boards[0].id);
      var step := RunLists(o, plan, uploaded, boards[0].lists, counted);
      RunListsStopAtRefusal(o, plan, uploaded, boards[0].lists, counted);
      var rest := if step.stop.Completed? then RunBoards(o, maps, uploaded, boards[1..], step.tally) else step;
      if step.stop.Completed? {
        RunBoardsStopAtRefusal(o, maps, uploaded, boards[1..], step.tally);
      }
      RunBoardsUnfold(o, maps, uploaded, boards, t);
      ChainCalls(o, ListCalls(plan.0, boards[0].lists), BucketCalls(maps, boards[1..]), t.lists, step, rest);
    }
  }

  /** The cards of a bucket keep the books: every card accounted for, dictionaries well formed, nothing earlier lost. */
  lemma {:induction false} RunCardsKeepsBooks(o: Oracles, plan: (Option<string>, Option<string>), bucket: string,
                                              uploaded: seq<FileMeta>, cards: seq<Card>, t: Tally)
    requires Balanced(t) && Consistent(t)
    ensures var r := RunCards(o, plan, bucket, uploaded, cards, t);
            Accounted(r) && Consistent(r.tally) && Extends(t, r.tally)
    decreases |cards|
  {
    if |cards| > 0 {
      var step := ProcessCard(o, plan, bucket, uploaded, cards[0], t);
      if step.stop.Completed? {
        RunCardsKeepsBooks(o, plan, bucket, uploaded, cards[1..], step.tally);
      }
    }
  }

  /** One list keeps the books, whether or not its bucket was created. */
  lemma RunListKeepsBooks(o: Oracles, plan: (Option<string>, Option<string>),
                          uploaded: seq<FileMeta>, list: TList, t: Tally)
    requires Balanced(t) && Consistent(t)
    ensures var r := RunList(o, plan, uploaded, list, t);
            Accounted(r) && Consistent(r.tally) && Extends(t, r.tally)
  {
    var bucket := o.createBucket(t.lists, plan.0, list.name);
    if bucket.Some? {
      CreatedListKeepsBooks(o, plan, uploaded, list, t, bucket.value);
    }
  }

  /** The case of `RunListKeepsBooks` where the list's bucket was created. */
  lemma CreatedListKeepsBooks(o: Oracles, plan: (Option<string>, Option<string>),
                              uploaded: seq<FileMeta>, list: TList, t: Tally, bucket: string)
    requires o.createBucket(t.lists, plan.0, list.name) == Some(bucket)
    requires Balanced(t) && Consistent(t)
    ensures var r := RunList(o, plan, uploaded, list, t);
            Accounted(r) && Consistent(r.tally) && Extends(t, r.tally)
  {
    var counted := t.(lists := t.lists + 1);
    assert Balanced(counted) && Consistent(counted) && Extends(t, counted);
    var r := RunCards(o, plan, bucket, uploaded, list.cards, counted);
    RunCardsKeepsBooks(o, plan, bucket, uploaded, list.cards, counted);
    ChainBooks(t, counted, r, r);
    RunListCreated(o, plan, uploaded, list, t, bucket);
  }

  /** A list whose bucket was created runs its cards into that bucket. */
  lemma RunListCreated(o: Oracles, plan: (Option<string>, Option<string>),
                       uploaded: seq<FileMeta>, list: TList, t: Tally, bucket: string)
    requires o.createBucket(t.lists, plan.0, list.name) == Some(bucket)
    ensures RunList(o, plan, uploaded, list, t)
            == RunCards(o, plan, bucket, uploaded, list.cards, t.(lists := t.lists + 1))
  {
  }

  /** The lists of a board keep the books. */
  lemma {:induction false} RunListsKeepsBooks(o: Oracles, plan: (Option<string>, Option<string>),
                                              uploaded: seq<FileMeta>, lists: seq<TList>, t: Tally)
    requires Balanced(t) && Consistent(t)
    ensures var r := RunLists(o, plan, uploaded, lists, t);
            Accounted(r) && Consistent(r.tally) && Extends(t, r.tally)
    decreases |lists|
  {
    if |lists| > 0 {
      var step := RunList(o, plan, uploaded, lists[0], t);
      RunListKeepsBooks(o, plan, uploaded, lists[0], t);
      var rest := if step.stop.Completed? then RunLists(o, plan, uploaded, lists[1..], step.tally) else step;
      if step.stop.Completed? {
        RunListsKeepsBooks(o, plan, uploaded, lists[1..], step.tally);
      }
      ChainBooks(t, t, step, rest);
    }
  }

  /** A board runs its lists into its plan, then (when they complete) the remaining boards. */
  lemma RunBoardsUnfold(o: Oracles, maps: seq<BoardMap>, uploaded: seq<FileMeta>, boards: seq<Board>, t: Tally)
    requires |boards| > 0
    ensures var step := RunLists(o, PlanForBoard(maps, boards[0].id), uploaded, boards[0].lists,
                                 t.(boards := t.boards + 1));
            RunBoards(o, maps, uploaded, boards, t)
            == if step.stop.Completed? then RunBoards(o, maps, uploaded, boards[1..], step.tally) else step
  {
  }

  /**
   The cards of a bucket are processed front to back, each exactly once:
   a pass over `cards + [c]` is the pass over `cards` followed, when that
   completes, by `c` alone on the tally it left.
   */
  lemma {:induction false} RunCardsSnoc(o: Oracles, plan: (Option<string>, Option<string>), bucket: string,
                                        uploaded: seq<FileMeta>, cards: seq<Card>, c: Card, t: Tally)
    ensures RunCards(o, plan, bucket, uploaded, cards + [c], t)
            == (var r := RunCards(o, plan, bucket, uploaded, cards, t);
                if r.stop.Completed? then ProcessCard(o, plan, bucket, uploaded, c, r.tally) else r)
    decreases |cards|
  {
    if |cards| > 0 {
      assert (cards + [c])[0] == cards[0];
      assert (cards + [c])[1..] == cards[1..] + [c];
      var step := ProcessCard(o, plan, bucket, uploaded, cards[0], t);
      if step.stop.Completed? {
        RunCardsSnoc(o, plan, bucket, uploaded, cards[1..], c, step.tally);
      }
    }
  }

  /**
   The lists of a board are processed front to back: a pass over
   `lists + [l]` is the pass over `lists` followed, when that completes,
   by list `l` (its bucket, then its cards).
   */
  lemma {:induction false} RunListsSnoc(o: Oracles, plan: (Option<string>, Option<string>),
                                        uploaded: seq<FileMeta>, lists: seq<TList>, l: TList, t: Tally)
    ensures RunLists(o, plan, uploaded, lists + [l], t)
            == (var r := RunLists(o, plan, uploaded, lists, t);
                if r.stop.Completed? then RunList(o, plan, uploaded, l, r.tally) else r)
    decreases |lists|
  {
    RunListsUnfold(o, plan, uploaded, lists + [l], t);
    if |lists| > 0 {
      assert (lists + [l])[0] == lists[0];
      assert (lists + [l])[1..] == lists[1..] + [l];
      RunListsUnfold(o, plan, uploaded, lists, t);
      var step := RunList(o, plan, uploaded, lists[0], t);
      if step.stop.Completed? {
        RunListsSnoc(o, plan, uploaded, lists[1..], l, step.tally);
      }
    } else {
      assert (lists + [l])[1..] == [];
    }
  }

  /** What follows a run over some boards when board `b` comes next: its lists, with `b` counted. */
  function ThenBoard(o: Oracles, maps: seq<BoardMap>, uploaded: seq<FileMeta>, r: Run, b: Board): Run {
    if r.stop.Completed?
    then RunLists(o, PlanForBoard(maps, b.id), uploaded, b.lists, r.tally.(boards := r.tally.boards + 1))
    else r
  }

  /**
   The boards are processed front to back: a run over `boards + [b]` is the
   run over `boards` followed, when that completes, by the lists of `b`
   in the plan mapped to it, with `b` counted.
   */
  lemma {:induction false} RunBoardsSnoc(o: Oracles, maps: seq<BoardMap>, uploaded: seq<FileMeta>,
                                         boards: seq<Board>, b: Board, t: Tally)
    ensures RunBoards(o, maps, uploaded, boards + [b], t)
            == ThenBoard(o, maps, uploaded, RunBoards(o, maps, uploaded, boards, t), b)
    decreases |boards|
  {
    var whole := boards + [b];
    RunBoardsUnfold(o, maps, uploaded, whole, t);
    if |boards| == 0 {
      assert whole[0] == b && whole[1..] == [];
    } else {
      assert whole[0] == boards[0];
      assert whole[1..] == boards[1..] + [b];
      RunBoardsUnfold(o, maps, uploaded, boards, t);
      var first := RunLists(o, PlanForBoard(maps, boards[0].id), uploaded, boards[0].lists,
                            t.(boards := t.boards + 1));
      if first.stop.Completed? {
        RunBoardsSnoc(o, maps, uploaded, boards[1..], b, first.tally);
      }
    }
  }

  /**
   A step that keeps the books, followed (when it completes) by a rest that
   keeps them, keeps the books from before the step.
   */
  lemma ChainBooks(t: Tally, counted: Tally, step: Run, rest: Run)
    requires Extends(t, counted)
    requires Accounted(step) && Consistent(step.tally) && Extends(counted, step.tally)
    requires step.stop.Completed? ==> Accounted(rest) && Consistent(rest.tally) && Extends(step.tally, rest.tally)
    requires !step.stop.Completed? ==> rest == step
    ensures Accounted(rest) && Consistent(rest.tally) && Extends(t, rest.tally)
  {
  }

  /** All boards keep the books. */
  lemma {:induction false} RunBoardsKeepsBooks(o: Oracles, maps: seq<BoardMap>, uploaded: seq<FileMeta>,
                                               boards: seq<Board>, t: Tally)
    requires Balanced(t) && Consistent(t)
    ensures var r := RunBoards(o, maps, uploaded, boards, t);
            Accounted(r) && Consistent(r.tally) && Extends(t, r.tally)
    decreases |boards|
  {
    if |boards| > 0 {
      var counted := t.(boards := t.boards + 1);
      var plan := PlanForBoard(maps, boards[0].id);
      var step := RunLists(o, plan, uploaded, boards[0].lists, counted);
      RunListsKeepsBooks(o, plan, uploaded, boards[0].lists, counted);
      var rest := if step.stop.Completed? then RunBoards(o, maps, uploaded, boards[1..], step.tally) else step;
      if step.stop.Completed? {
        RunBoardsKeepsBooks(o, maps, uploaded, boards[1..], step.tally);
      }
      RunBoardsUnfold(o, maps, uploaded, boards, t);
      ChainBooks(t, counted, step, rest);
    }
  }

  /**
   `SyncBoardsToPlans`: refuses without boards, board maps, uploaded
   records or plans, and without the confirmation word; otherwise runs
   every board from empty counters.
   */
  function SyncBoardsToPlans(boards: Option<seq<Board>>, maps: seq<BoardMap>, uploaded: seq<FileMeta>,
                             plansLoaded: bool, confirmation: Option<string>, o: Oracles)
    : (r: Result<Run, Refusal>)
    ensures (boards.None? || |maps| == 0 || |uploaded| == 0 || !plansLoaded) <==> r == Err(MissingInformation)
    ensures r == Err(NotConfirmed) <==>
              !(boards.None? || |maps| == 0 || |uploaded| == 0 || !plansLoaded)
              && confirmation != Some(Confirmation)
    ensures r.Ok? ==> boards.Some? && Accounted(r.value) && Consistent(r.value.tally)
    ensures r.Ok? ==> |r.value.tally.withAttachments| <= |r.value.tally.posted|
    ensures r.Ok? ==> r.value.tally.cards <= TotalCards(boards.value)
    ensures r.Ok? && r.value.stop.BucketFailed? ==> BucketRefused(o, r.value)
    ensures r.Ok? ==> StopsAtRefusal(o, BucketCalls(maps, boards.value), 0, r.value)
    ensures r.Ok? && r.value.stop.Completed? ==>
              && r.value.tally.boards == |boards.value|
              && r.value.tally.lists == TotalLists(boards.value)
              && r.value.tally.cards == TotalCards(boards.value)
              && |r.value.tally.posted| + |r.value.tally.failed| == TotalCards(boards.value)
  {
    if boards.None? || |maps| == 0 || |uploaded| == 0 || !plansLoaded then Err(MissingInformation)
    else if confirmation != Some(Confirmation) then Err(NotConfirmed)
    else
      var r := RunBoards(o, maps, uploaded, boards.value, EmptyTally);
      RunBoardsKeepsBooks(o, maps, uploaded, boards.value, EmptyTally);
      RunBoardsStopAtRefusal(o, maps, uploaded, boards.value, EmptyTally);
      WithAttachmentsFit(r.tally);
      Ok(r)
  }

  /** Counting only created tasks, those with attachments never outnumber all of them. */
  lemma WithAttachmentsFit(t: Tally)
    requires Consistent(t)
    ensures |t.withAttachments| <= |t.posted|
  {
    SubsetSize(t.withAttachments, TaskIds(t.posted));
  }

  /** A duplicate-free sequence whose elements all occur in `b` is no longer than `b`. */
  lemma SubsetSize(a: seq<string>, b: seq<string>)
    requires forall i, j :: 0 <= i < j < |a| ==> a[i] != a[j]
    requires forall x :: x in a ==> x in b
    ensures |a| <= |b|
  {
    var sa := set x | x in a;
    var sb := set x | x in b;
    assert sa <= sb;
    assert sb == sa + (sb - sa) && sa !! (sb - sa);
    assert |sb| == |sa| + |sb - sa|;
    DistinctCardinality(a);
    SetOfSeqSize(b);
  }

  /** A duplicate-free sequence has as many distinct elements as entries. */
  lemma {:induction false} DistinctCardinality(a: seq<string>)
    requires forall i, j :: 0 <= i < j < |a| ==> a[i] != a[j]
    ensures |set x | x in a| == |a|
  {
    if |a| > 0 {
      var front := a[..|a| - 1];
      DistinctCardinality(front);
      assert (set x | x in a) == (set x | x in front) + {a[|a| - 1]};
    }
  }

  /** A sequence has at most as many distinct elements as entries. */
  lemma {:induction false} SetOfSeqSize(b: seq<string>)
    ensures |set x | x in b| <= |b|
  {
    if |b| > 0 {
      var front := b[..|b| - 1];
      SetOfSeqSize(front);
      assert (set x | x in b) == (set x | x in front) + {b[|b| - 1]};
    }
  }
}

=== FILE: task_payloads.dfy ===
/**
 The planner task a card becomes on the target side: a title cut to the planner's
 limit, the description, one checklist holding every item of every
 checklist (titles cut to their own limit, order hints growing by one step
 per item), and one external reference per attachment pointing at the
 uploaded copy when there is one and at the source service otherwise.
 */
module TaskPayloads {
  import opened Basics
  import opened Seqs
  import opened CheckLists
  import opened Attachments
  import opened FileMetas
  import opened Cards

  /** Longest task title the planner accepts. */
  const TitleLimit: nat := 255

  /** Longest checklist item title the planner accepts. */
  const ChecklistTitleLimit: nat := 100

  /** One step of an order hint; the first item's hint is one step. */
  const HintStep: string := " !"

  /** The first `limit` characters of `s`, or all of `s` when it is not longer. */
  function Truncate(s: string, limit: nat): (r: string)
    ensures |s| <= limit ==> |r| == |s|
    ensures |s| > limit ==> |r| == limit
    ensures r == s[..|r|]
  {
    if |s| > limit then s[..limit] else s
  }

  /** Truncating again changes nothing, and a string within the limit passes through. */
  lemma TruncateIdempotent(s: string, limit: nat)
    ensures Truncate(Truncate(s, limit), limit) == Truncate(s, limit)
    ensures |s| <= limit ==> Truncate(s, limit) == s
  {
  }

  /** `s` written `n` times in a row. */
  function Repeat(s: string, n: nat): string {
    if n == 0 then [] else s + Repeat(s, n - 1)
  }

  /** The order hint of the `k`-th checklist item (counting from zero): `k + 1` steps. */
  function OrderHint(k: nat): string {
    Repeat(HintStep, k + 1)
  }

  /** `n` repetitions are `n` times as long as one. */
  lemma {:induction false} RepeatLength(s: string, n: nat)
    ensures |Repeat(s, n)| == n * |s|
  {
    if n > 0 {
      RepeatLength(s, n - 1);
    }
  }

  /** Fewer repetitions are a prefix of more. */
  lemma {:induction false} RepeatPrefix(s: string, i: nat, j: nat)
    requires i <= j
    ensures |Repeat(s, i)| <= |Repeat(s, j)|
    ensures Repeat(s, j)[..|Repeat(s, i)|] == Repeat(s, i)
  {
    RepeatLength(s, i);
    RepeatLength(s, j);
    if i > 0 {
      RepeatPrefix(s, i - 1, j - 1);
      assert Repeat(s, j) == s + Repeat(s, j - 1);
    }
  }

  /** Order hints grow strictly: an earlier item's hint is a proper prefix of every later one's. */
  lemma OrderHintsIncrease(i: nat, j: nat)
    requires i < j
    ensures |OrderHint(i)| == 2 * (i + 1)
    ensures |OrderHint(i)| < |OrderHint(j)|
    ensures OrderHint(j)[..|OrderHint(i)|] == OrderHint(i)
  {
    RepeatLength(HintStep, i + 1);
    RepeatLength(HintStep, j + 1);
    RepeatPrefix(HintStep, i + 1, j + 1);
  }

  /** One checklist entry of a planner task's details. */
  datatype ChecklistEntry = ChecklistEntry(isChecked: bool, title: string, orderHint: string)

  /**
   The checklist entries for `items`, the first one getting `hint` and each
   following one the previous hint plus one step, as the source's loop does.
   */
  function ChecklistEntries(items: seq<CheckItem>, hint: string): (r: seq<ChecklistEntry>)
    ensures |r| == |items|
    decreases |items|
  {
    if |items| == 0 then []
    else
      [ChecklistEntry(items[0].Checked(), Truncate(items[0].name, ChecklistTitleLimit), hint)]
      + ChecklistEntries(items[1..], hint + HintStep)
  }

  /**
   Entry `k` ticks as item `k` does, carries at most 100 characters of its
   name, and its order hint is the first one extended by `k` steps.
   */
  lemma {:induction false} ChecklistEntryAt(items: seq<CheckItem>, hint: string, k: nat)
    requires k < |items|
    ensures ChecklistEntries(items, hint)[k]
            == ChecklistEntry(items[k].Checked(), Truncate(items[k].name, ChecklistTitleLimit),
                              hint + Repeat(HintStep, k))
    decreases |items|
  {
    if k > 0 {
      ChecklistEntryAt(items[1..], hint + HintStep, k - 1);
      assert (hint + HintStep) + Repeat(HintStep, k - 1) == hint + (HintStep + Repeat(HintStep, k - 1));
    }
  }

  /**
   The merged checklist of a card: every item of every checklist in order,
   names not prefixed, item `k` ticked as its source item, titled with at
   most 100 characters of its name, with order hint `OrderHint(k)`.
   */
  function CardChecklist(cls: seq<CheckList>): (r: seq<ChecklistEntry>)
    ensures |r| == |ConcatItems(cls)| == TotalItems(cls)
    ensures forall k :: 0 <= k < |r| ==>
              && r[k].isChecked == ConcatItems(cls)[k].Checked()
              && r[k].title == Truncate(ConcatItems(cls)[k].name, ChecklistTitleLimit)
              && r[k].orderHint == OrderHint(k)
  {
    ConcatItemsLength(cls);
    CardChecklistEntries(ConcatItems(cls));
    ChecklistEntries(ConcatItems(cls), HintStep)
  }

  /** Every entry of the merged checklist, with the first hint being one step. */
  lemma CardChecklistEntries(items: seq<CheckItem>)
    ensures forall k :: 0 <= k < |items| ==>
              ChecklistEntries(items, HintStep)[k]
              == ChecklistEntry(items[k].Checked(), Truncate(items[k].name, ChecklistTitleLimit), OrderHint(k))
  {
    forall k | 0 <= k < |items|
      ensures ChecklistEntries(items, HintStep)[k]
              == ChecklistEntry(items[k].Checked(), Truncate(items[k].name, ChecklistTitleLimit), OrderHint(k))
    {
      ChecklistEntryAt(items, HintStep, k);
    }
  }

  /** One external reference of a planner task's details, keyed by the escaped URL. */
  datatype ExternalRef = ExternalRef(key: string, alias: string, lastModified: DateTime)

  datatype PayloadError =
    | MissingUploadMeta(attachmentId: string)  // no uploaded record for an attachment: `First()` throws
    | DuplicateReference(key: string)          // two references with one key: `Add` throws

  /** The URL a reference points at: the uploaded copy's, else the source service's. */
  function RefUrl(meta: FileMeta): (u: string)
    ensures meta.graphUrl.Some? ==> u == meta.graphUrl.value
    ensures meta.graphUrl.None? ==> u == meta.attachmentData.url
  {
    meta.graphUrl.GetOr(meta.attachmentData.url)
  }

  /** The first uploaded record of the attachment with id `attachmentId`. */
  function FindUploaded(uploaded: seq<FileMeta>, attachmentId: string): (r: Option<FileMeta>)
    ensures r.Some? ==> r.value in uploaded && r.value.attachmentData.id == attachmentId
  {
    match FirstIndex(uploaded, (m: FileMeta) => m.attachmentData.id == attachmentId)
    case None => None
    case Some(k) => Some(uploaded[k])
  }

  /** No record is found exactly when no uploaded record belongs to the attachment. */
  lemma FindUploadedNone(uploaded: seq<FileMeta>, attachmentId: string)
    ensures FindUploaded(uploaded, attachmentId).None?
            <==> forall m :: m in uploaded ==> m.attachmentData.id != attachmentId
  {
  }

  /** `First()` semantics: the record found is the earliest one for the attachment. */
  lemma FindUploadedFirst(uploaded: seq<FileMeta>, attachmentId: string, k: nat)
    requires k < |uploaded| && uploaded[k].attachmentData.id == attachmentId
    requires forall j :: 0 <= j < k ==> uploaded[j].attachmentData.id != attachmentId
    ensures FindUploaded(uploaded, attachmentId) == Some(uploaded[k])
  {
  }

  /** The reference made from an uploaded record; `encode` escapes the URL for use as a key. */
  function RefFor(meta: FileMeta, encode: string -> string): ExternalRef {
    ExternalRef("@" + encode(RefUrl(meta)), meta.attachmentData.fileName, meta.attachmentData.date)
  }

  /** The keys of `refs`, in order. */
  function RefKeys(refs: seq<ExternalRef>): (keys: seq<string>)
    ensures |keys| == |refs|
    ensures forall k :: 0 <= k < |refs| ==> keys[k] == refs[k].key
  {
    seq(|refs|, k requires 0 <= k < |refs| => refs[k].key)
  }

  /**
   The references of a card's attachments, in attachment order. Fails on
   the first attachment without an uploaded record, or whose key an
   earlier reference already uses.
   */
  function References(attachments: seq<Attachment>, uploaded: seq<FileMeta>, encode: string -> string)
    : (r: Result<seq<ExternalRef>, PayloadError>)
    ensures r.Ok? ==> |r.value| == |attachments|
    ensures r.Ok? ==> forall i, j :: 0 <= i < j < |r.value| ==> r.value[i].key != r.value[j].key
    ensures r.Err? && r.error.MissingUploadMeta? ==>
              exists k :: 0 <= k < |attachments| && attachments[k].id == r.error.attachmentId
                          && FindUploaded(uploaded, attachments[k].id).None?
    decreases |attachments|
  {
    if |attachments| == 0 then Ok([])
    else
      var front := attachments[..|attachments| - 1];
      var last := attachments[|attachments| - 1];
      match References(front, uploaded, encode)
      case Err(e) => Err(e)
      case Ok(refs) =>
        match FindUploaded(uploaded, last.id)
        case None => Err(MissingUploadMeta(last.id))
        case Some(meta) =>
          var ref := RefFor(meta, encode);
          if ref.key in RefKeys(refs) then Err(DuplicateReference(ref.key))
          else Ok(refs + [ref])
  }

  /**
   The references stop at the first attachment that fails: when the first
   `k` attachments give references and the first `k + 1` do not, the whole
   list fails with the error attachment `k` raised. Later attachments never
   change that error.
   */
  lemma {:induction false} ReferencesFirstFailure(attachments: seq<Attachment>, uploaded: seq<FileMeta>,
                                                  encode: string -> string, k: nat)
    requires k < |attachments|
    requires References(attachments[..k], uploaded, encode).Ok?
    requires References(attachments[..k + 1], uploaded, encode).Err?
    ensures References(attachments, uploaded, encode) == References(attachments[..k + 1], uploaded, encode)
    decreases |attachments|
  {
    if k + 1 < |attachments| {
      var front := attachments[..|attachments| - 1];
      assert front[..k] == attachments[..k];
      assert front[..k + 1] == attachments[..k + 1];
      ReferencesFirstFailure(front, uploaded, encode, k);
    } else {
      assert attachments[..k + 1] == attachments;
    }
  }

  /**
   When the references are built, the `k`-th is made from the uploaded
   record of the `k`-th attachment, which therefore exists.
   */
  lemma {:induction false} ReferenceAt(attachments: seq<Attachment>, uploaded: seq<FileMeta>,
                                       encode: string -> string, k: nat)
    requires k < |attachments|
    ensures var r := References(attachments, uploaded, encode);
            r.Ok? ==> && FindUploaded(uploaded, attachments[k].id).Some?
                      && r.value[k] == RefFor(FindUploaded(uploaded, attachments[k].id).value, encode)
    decreases |attachments|
  {
    if References(attachments, uploaded, encode).Ok? {
      var front := attachments[..|attachments| - 1];
      var last := attachments[|attachments| - 1];
      assert References(front, uploaded, encode).Ok?;
      var refs := References(front, uploaded, encode).value;
      var meta := FindUploaded(uploaded, last.id);
      assert meta.Some?;
      assert References(attachments, uploaded, encode).value == refs + [RefFor(meta.value, encode)];
      if k < |front| {
        ReferenceAt(front, uploaded, encode, k);
        assert front[k] == attachments[k];
      }
    }
  }

  /** An attachment without an uploaded record makes building the references fail. */
  lemma MissingUploadFails(attachments: seq<Attachment>, uploaded: seq<FileMeta>,
                           encode: string -> string, k: nat)
    requires k < |attachments| && FindUploaded(uploaded, attachments[k].id).None?
    ensures References(attachments, uploaded, encode).Err?
  {
  }

  /** Every attachment has an uploaded record. */
  predicate AllUploaded(attachments: seq<Attachment>, uploaded: seq<FileMeta>) {
    forall k :: 0 <= k < |attachments| ==> FindUploaded(uploaded, attachments[k].id).Some?
  }

  /** The key the reference of attachment `k` would have, given that its record exists. */
  function KeyAt(attachments: seq<Attachment>, uploaded: seq<FileMeta>, encode: string -> string, k: nat): string
    requires k < |attachments| && AllUploaded(attachments, uploaded)
  {
    RefFor(FindUploaded(uploaded, attachments[k].id).value, encode).key
  }

  /**
   Building the references succeeds exactly when every attachment has an
   uploaded record and the keys of their references are pairwise distinct.
   */
  lemma {:induction false} ReferencesSucceed(attachments: seq<Attachment>, uploaded: seq<FileMeta>,
                                             encode: string -> string)
    ensures References(attachments, uploaded, encode).Ok? <==>
              && AllUploaded(attachments, uploaded)
              && forall i, j :: 0 <= i < j < |attachments| ==>
                   KeyAt(attachments, uploaded, encode, i) != KeyAt(attachments, uploaded, encode, j)
    decreases |attachments|
  {
    var r := References(attachments, uploaded, encode);
    if r.Ok? {
      forall k | 0 <= k < |attachments|
        ensures FindUploaded(uploaded, attachments[k].id).Some?
        ensures r.value[k] == RefFor(FindUploaded(uploaded, attachments[k].id).value, encode)
      {
        ReferenceAt(attachments, uploaded, encode, k);
      }
    } else if |attachments| > 0 && AllUploaded(attachments, uploaded) {
      var front := attachments[..|attachments| - 1];
      var last := |attachments| - 1;
      assert AllUploaded(front, uploaded) by {
        forall k | 0 <= k < |front| ensures FindUploaded(uploaded, front[k].id).Some? {
          assert front[k] == attachments[k];
        }
      }
      ReferencesSucceed(front, uploaded, encode);
      var rf := References(front, uploaded, encode);
      if rf.Ok? {
        var key := KeyAt(attachments, uploaded, encode, last);
        assert key in RefKeys(rf.value);
        var k :| 0 <= k < |rf.value| && rf.value[k].key == key;
        ReferenceAt(front, uploaded, encode, k);
        assert front[k] == attachments[k];
        assert KeyAt(attachments, uploaded, encode, k) == key;
      } else {
        var i, j :| 0 <= i < j < |front| && KeyAt(front, uploaded, encode, i) == KeyAt(front, uploaded, encode, j);
        assert front[i] == attachments[i] && front[j] == attachments[j];
        assert KeyAt(attachments, uploaded, encode, i) == KeyAt(attachments, uploaded, encode, j);
      }
    }
  }

  /** A duplicate-reference error names a key that the references of two attachments share. */
  lemma {:induction false} DuplicateReferenceClash(attachments: seq<Attachment>, uploaded: seq<FileMeta>,
                                                   encode: string -> string, key: string)
    requires References(attachments, uploaded, encode) == Err(DuplicateReference(key))
    ensures exists i, j :: 0 <= i < j < |attachments|
              && FindUploaded(uploaded, attachments[i].id).Some? && FindUploaded(uploaded, attachments[j].id).Some?
              && RefFor(FindUploaded(uploaded, attachments[i].id).value, encode).key == key
              && RefFor(FindUploaded(uploaded, attachments[j].id).value, encode).key == key
    decreases |attachments|
  {
    var front := attachments[..|attachments| - 1];
    var last := |attachments| - 1;
    var rf := References(front, uploaded, encode);
    if rf.Err? {
      DuplicateReferenceClash(front, uploaded, encode, key);
      var i, j :| 0 <= i < j < |front|
                  && FindUploaded(uploaded, front[i].id).Some? && FindUploaded(uploaded, front[j].id).Some?
                  && RefFor(FindUploaded(uploaded, front[i].id).value, encode).key == key
                  && RefFor(FindUploaded(uploaded, front[j].id).value, encode).key == key;
      assert front[i] == attachments[i] && front[j] == attachments[j];
    } else {
      assert key in RefKeys(rf.value);
      var k :| 0 <= k < |rf.value| && rf.value[k].key == key;
      ReferenceAt(front, uploaded, encode, k);
      assert front[k] == attachments[k];
      assert RefFor(FindUploaded(uploaded, attachments[last].id).value, encode).key == key;
    }
  }

  /** The planner task posted for one card. `checklist` and `references` stay unset when the card has none. */
  datatype TaskPayload = TaskPayload(
    planId: Option<string>,
    bucketId: string,
    title: string,
    description: string,
    checklist: Option<seq<ChecklistEntry>>,
    references: Option<seq<ExternalRef>>)

  /**
   Builds the planner task for `card` in the given plan and bucket: the title is the
   card name cut to 255 characters, the description is copied, checklists
   and references are added when the card has any.
   */
  function BuildTask(card: Card, planId: Option<string>, bucketId: string, uploaded: seq<FileMeta>,
                     encode: string -> string): (r: Result<TaskPayload, PayloadError>)
    ensures r.Ok? ==> r.value.planId == planId && r.value.bucketId == bucketId
    ensures r.Ok? ==> r.value.title == Truncate(card.name, TitleLimit) && r.value.description == card.description
    ensures r.Ok? ==> (r.value.checklist.Some? <==> |card.checkLists| > 0)
    ensures r.Ok? && |card.checkLists| > 0 ==> r.value.checklist.value == CardChecklist(card.checkLists)
    ensures r.Ok? ==> (r.value.references.Some? <==> |card.attachments| > 0)
    ensures |card.attachments| > 0 ==>
              (r.Ok? <==> References(card.attachments, uploaded, encode).Ok?)
              && (r.Ok? ==> r.value.references == Some(References(card.attachments, uploaded, encode).value))
    ensures |card.attachments| == 0 ==> r.Ok?
    ensures r.Err? ==> |card.attachments| > 0 && r.error == References(card.attachments, uploaded, encode).error
  {
    var checklist := if |card.checkLists| > 0 then Some(CardChecklist(card.checkLists)) else None;
    if |card.attachments| > 0 then
      match References(card.attachments, uploaded, encode)
      case Err(e) => Err(e)
      case Ok(refs) =>
        Ok(TaskPayload(planId, bucketId, Truncate(card.name, TitleLimit), card.description, checklist, Some(refs)))
    else
      Ok(TaskPayload(planId, bucketId, Truncate(card.name, TitleLimit), card.description, checklist, None))
  }

  /**
   A card title is passed through when it has at most 255 characters and
   is otherwise cut to its first 255; the title is always a prefix of the name.
   */
  lemma TitleRule(card: Card, planId: Option<string>, bucketId: string, uploaded: seq<FileMeta>,
                  encode: string -> string)
    requires BuildTask(card, planId, bucketId, uploaded, encode).Ok?
    ensures var t := BuildTask(card, planId, bucketId, uploaded, encode).value.title;
            && (|card.name| <= 255 ==> t == card.name)
            && (|card.name| > 255 ==> t == card.name[..255])
  {
  }
}

=== FILE: uploads.dfy ===
/**
 The upload pass: every rendered attachment record is sent to the target
 plan of the board it came from, and the records are collected into the
 session's uploaded list. Opening the downloaded file and the upload call
 itself are oracles supplied by the caller.
 */
module Uploads {
  import opened Basics
  import opened Seqs
  import opened FileMetas
  import opened BoardMaps

  datatype UploadError =
    | NoBoardMaps        // no board has been mapped yet
    | FileMetaNotLoaded  // attachment records have not been rendered or loaded
    | AlreadyUploaded    // the session's uploaded list is not empty

  /** The record has nothing to upload: its reported length is below one byte. */
  predicate IsEmpty(m: FileMeta) {
    m.attachmentData.bytes < 1
  }

  /** Records the pass keeps: empty ones, and ones whose downloaded file opens. */
  function Kept(canOpen: FileMeta -> bool): FileMeta -> bool {
    m => IsEmpty(m) || canOpen(m)
  }

  /** Records the pass skips: non-empty ones whose downloaded file does not open. */
  function Skipped(canOpen: FileMeta -> bool): FileMeta -> bool {
    m => !IsEmpty(m) && !canOpen(m)
  }

  /**
   What the pass records for a kept entry: an empty one as it is, any other
   with its uploaded URL set to the answer of the upload call (possibly none)
   made with its board's plan id, its file name and its local file.
   */
  function Recorded(maps: seq<BoardMap>, upload: (Option<string>, string, Guid) -> Option<string>, m: FileMeta): (r: FileMeta)
    ensures r.(graphUrl := m.graphUrl) == m
    ensures IsEmpty(m) ==> r == m
    ensures !IsEmpty(m) ==> r.graphUrl == upload(PlanForBoard(maps, m.originBoard).0, m.attachmentData.fileName, m.fileId)
  {
    if IsEmpty(m) then m
    else WithGraphUrl(m, upload(PlanForBoard(maps, m.originBoard).0, m.attachmentData.fileName, m.fileId))
  }

  /** `Recorded` as a function value, for mapping over records. */
  function Record(maps: seq<BoardMap>, upload: (Option<string>, string, Guid) -> Option<string>): FileMeta -> FileMeta {
    m => Recorded(maps, upload, m)
  }

  /** Reference result of the pass: the kept entries, in order, as recorded. */
  function ExpectedUploads(maps: seq<BoardMap>, metas: seq<FileMeta>, canOpen: FileMeta -> bool,
                           upload: (Option<string>, string, Guid) -> Option<string>): seq<FileMeta> {
    MapSeq(Filter(metas, Kept(canOpen)), Record(maps, upload))
  }

  /**
   `UploadTrelloFilesToGraph`: refuses to run without board maps, without
   records, or when files were already uploaded this session; otherwise
   walks the records in order, appending empty ones untouched, skipping
   ones whose file cannot be opened, and appending every other one with
   the URL the upload returned.
   */
  method UploadTrelloFilesToGraph(maps: seq<BoardMap>, fileMeta: Option<seq<FileMeta>>, uploaded: seq<FileMeta>,
                                  canOpen: FileMeta -> bool, upload: (Option<string>, string, Guid) -> Option<string>)
    returns (r: Result<seq<FileMeta>, UploadError>)
    ensures |maps| == 0 <==> r == Err(NoBoardMaps)
    ensures |maps| > 0 && fileMeta.None? <==> r == Err(FileMetaNotLoaded)
    ensures |maps| > 0 && fileMeta.Some? && |uploaded| > 0 <==> r == Err(AlreadyUploaded)
    ensures r.Ok? ==> fileMeta.Some? && r.value == ExpectedUploads(maps, fileMeta.value, canOpen, upload)
  {
    if |maps| == 0 {
      return Err(NoBoardMaps);
    }
    if fileMeta.None? {
      return Err(FileMetaNotLoaded);
    }
    if |uploaded| > 0 {
      return Err(AlreadyUploaded);
    }
    var metas := fileMeta.value;
    var out: seq<FileMeta> := [];
    var i := 0;
    while i < |metas|
      invariant 0 <= i <= |metas|
      invariant out == ExpectedUploads(maps, metas[..i], canOpen, upload)
    {
      var fm := metas[i];
      assert metas[..i + 1] == metas[..i] + [fm];
      FilterSnoc(metas[..i], fm, Kept(canOpen));
      if fm.attachmentData.bytes < 1 {
        MapSeqSnoc(Filter(metas[..i], Kept(canOpen)), fm, Record(maps, upload));
        out := out + [fm];
      } else if !canOpen(fm) {
      } else {
        var webUrl := upload(PlanForBoard(maps, fm.originBoard).0, fm.attachmentData.fileName, fm.fileId);
        var fmNew := fm.(graphUrl := webUrl);
        MapSeqSnoc(Filter(metas[..i], Kept(canOpen)), fm, Record(maps, upload));
        out := out + [fmNew];
      }
      i := i + 1;
    }
    assert metas[..i] == metas;
    return Ok(out);
  }

  /** No two records share an identifier. */
  predicate UniqueFileIds(metas: seq<FileMeta>) {
    forall i, j :: 0 <= i < j < |metas| ==> metas[i].fileId != metas[j].fileId
  }

  /**
   The fate of one record: an empty one is recorded verbatim, an openable
   one is recorded with the upload's URL and nothing else changed, and an
   unopenable one leaves no entry with its identifier.
   */
  lemma UploadOutcome(maps: seq<BoardMap>, metas: seq<FileMeta>, canOpen: FileMeta -> bool,
                      upload: (Option<string>, string, Guid) -> Option<string>, i: nat)
    requires i < |metas|
    ensures IsEmpty(metas[i]) ==> metas[i] in ExpectedUploads(maps, metas, canOpen, upload)
    ensures !IsEmpty(metas[i]) && canOpen(metas[i]) ==>
              metas[i].(graphUrl := upload(PlanForBoard(maps, metas[i].originBoard).0,
                                           metas[i].attachmentData.fileName, metas[i].fileId))
              in ExpectedUploads(maps, metas, canOpen, upload)
    ensures !IsEmpty(metas[i]) && !canOpen(metas[i]) && UniqueFileIds(metas) ==>
              forall m :: m in ExpectedUploads(maps, metas, canOpen, upload) ==> m.fileId != metas[i].fileId
  {
    var kept := Filter(metas, Kept(canOpen));
    var out := ExpectedUploads(maps, metas, canOpen, upload);
    if Kept(canOpen)(metas[i]) {
      var k :| 0 <= k < |kept| && kept[k] == metas[i];
      assert out[k] == Record(maps, upload)(metas[i]);
    } else if UniqueFileIds(metas) {
      forall m | m in out
        ensures m.fileId != metas[i].fileId
      {
        var k :| 0 <= k < |out| && out[k] == m;
        assert kept[k] in metas && Kept(canOpen)(kept[k]);
        var j :| 0 <= j < |metas| && metas[j] == kept[k];
        assert m == Recorded(maps, upload, kept[k]);
        assert m.fileId == metas[j].fileId;
        assert j != i;
      }
    }
  }

  /** Every record of the pass keeps the identity, completion flag and hash of the record it came from. */
  lemma UploadOnlySetsUrls(maps: seq<BoardMap>, metas: seq<FileMeta>, canOpen: FileMeta -> bool,
                           upload: (Option<string>, string, Guid) -> Option<string>)
    ensures forall m :: m in ExpectedUploads(maps, metas, canOpen, upload) ==>
              exists src :: src in metas && src == m.(graphUrl := src.graphUrl)
  {
  }

  /** Recorded and skipped entries together account for every record exactly once. */
  lemma {:induction false} UploadAccountsForAll(metas: seq<FileMeta>, canOpen: FileMeta -> bool)
    ensures |Filter(metas, Kept(canOpen))| + |Filter(metas, Skipped(canOpen))| == |metas|
  {
    if |metas| > 0 {
      var front := metas[..|metas| - 1];
      UploadAccountsForAll(front, canOpen);
    }
  }
}
